=== FILE: README.md ===
# AIticulate speech-analysis core in Dafny

AIticulate is a browser speaking coach (`app.js`, class `AIticulate`). The
browser's speech recogniser delivers a transcript. When recording ends, the
transcript is analysed:

- words are counted;
- the speaking rate is computed in words per minute;
- catalogued filler phrases ("um", "you know", ...) are counted as whole words;
- pauses are counted as sentence punctuation;
- pronunciation challenges are flagged by substring search for their example words.

The metrics are then banded (slow / ideal / fast rate; no / few / many fillers)
into feedback lines and a list of suggestions. A scripted chat coach answers
messages:

- by ordered keyword rules;
- otherwise by a summary of the last analysis;
- otherwise by one of five stock replies.

This project models that core as pure Dafny functions over immutable data and
proves what it promises.

| module | file | what it models |
|---|---|---|
| `Text` | `Text.dfy` | JavaScript `\s` and `\w`, ASCII `toLowerCase`, `includes`, `trim`, decimal rendering of numbers, subsequences |
| `WordSplit` | `Words.dfy` | `split(/\s+/).filter(w => w.length > 0)` and the word count |
| `Transcript` | `Transcript.dfy` | the transcript a recognition event rebuilds |
| `Fillers` | `Fillers.dfy` | `text.match(new RegExp("\\b" + f + "\\b", "gi"))` counting, the filler catalogue, the filler entries and their total |
| `Pronunciation` | `Pronunciation.dfy` | the challenge catalogue and `analyzePronunciation` |
| `Metrics` | `Metrics.dfy` | `speechData`, the speaking rate, pauses, `analyzeSpeech` |
| `Feedback` | `Feedback.dfy` | the bands, the feedback lines of `displayAnalysis`, `generateSuggestions` |
| `Chat` | `Chat.dfy` | `generateChatResponse`, split into the choice of reply and its wording |
| `Session` | `Session.dfy` | `startRecording`, `onstart`, `handleSpeechResult`, `handleSpeechEnd`, `resetRecordingState`, `handleSpeechError` |

Modelling choices:

- Times are integers in milliseconds, passed in where the source reads `new Date()`.
- `Math.random()` becomes an index `pick` in `[0, 5)`.
- `Math.round(wordCount / seconds * 60)` is computed exactly over the rationals, as `(120000 * words + ms) / (2 * ms)`. That is round-half-up, which is what `Math.round` does for non-negative values.
- Where the code's behaviour is easy to misread, the model follows the code:
  - **Rate with a zero duration.** The code has no zero-duration guard: a zero duration gives `Infinity` or `NaN`. `SpeakingRate` therefore requires a positive duration, and `HandleSpeechEnd` requires the end time to be later than the start time whenever it analyses.
  - **Transcript buffers.** Each result event rebuilds the whole transcript from the event's results from `resultIndex` on, discarding the previous value; no final text is carried over between events.

## Model

| member | source | states |
|---|---|---|
| Text.Lower | app.js:282 | lower-casing keeps the length, leaves no upper-case ASCII letter, turns each upper-case letter into its lower-case partner and keeps every other character |
| Text.LowerIdempotent | app.js:282 | lower-casing an already lower-cased text changes nothing |
| Text.Trim | app.js:260 | the trimmed string is empty exactly when the string is all whitespace; otherwise it starts and ends with non-whitespace |
| Text.NatToStringRoundTrip | app.js:337 | the decimal rendering of a count reads back as the same number |
| WordSplit.SplitOnSpaceRuns | app.js:284 | `split(/\s+/)` gives at least one piece, no piece holds whitespace, and the last piece is empty exactly when the text is empty or ends in whitespace |
| WordSplit.CountWords | app.js:284-287 | the loop counts exactly the non-empty pieces of the whitespace-run split |
| WordSplit.NoWordsIffAllSpace | app.js:284-287 | a transcript has no words exactly when it is all whitespace |
| WordSplit.TrimGateIffWords | app.js:260 | the `trim()` gate passes exactly when the word count is positive |
| WordSplit.WordCountIgnoresCase | app.js:283-287 | lower-casing the transcript does not change its words' count |
| WordSplit.WordsOfJoin | app.js:284 | splitting words joined by single spaces gives back the same words |
| WordSplit.WordsAppendWord | app.js:284-285 | a whitespace-free word appended to the empty text or after whitespace becomes exactly one more word |
| WordSplit.WordsSnocSpace | app.js:284-285 | a whitespace character appended to a text adds no word |
| WordSplit.WordsSnocExtend | app.js:284-285 | a non-whitespace character appended right after a word extends that last word |
| WordSplit.WordsAfterBreak | app.js:284-285 | after a text ending in whitespace (or the empty text), the words of what follows are appended unchanged |
| WordSplit.WordsSplitAtSpace | app.js:284-285 | the words of `a`, a whitespace character and `b` are the words of `a` followed by the words of `b` |
| Transcript.HandleSpeechResult | app.js:211-224 | the transcript is all final fragments from `resultIndex` on, in order, followed by all interim ones |
| Transcript.RebuildLength | app.js:211-224 | the rebuilt transcript is exactly as long as the pending fragments together |
| Transcript.RebuildAllFinal | app.js:211-224 | when every pending fragment is final, the transcript is their plain concatenation |
| Transcript.FinalBeforeInterim | app.js:215-223 | an interim fragment received before a final one still comes after it |
| Fillers.FillerCount | app.js:294-295 | the global whole-word search (`CountFrom` scans left to right, resuming after each match) finds nothing exactly when the phrase matches at no position |
| Fillers.FillerCountPositiveIff | app.js:293-296 | a filler is counted exactly when its whole-word pattern matches somewhere |
| Fillers.CountFromIsMatchPositions | app.js:294-295 | for a phrase that cannot match inside its own match, the global search counts exactly the positions where `\bf\b` matches |
| Fillers.NoMatchInside | app.js:294 | no match of such a phrase starts strictly inside another of its matches |
| Fillers.FillerCountIsMatchCount | app.js:294-296 | the filler count equals the number of whole-word match positions |
| Fillers.CatalogueNoSelfOverlap | app.js:291 | every phrase of the filler catalogue, "you know" and "I mean" included, cannot match inside its own match |
| Fillers.CatalogueCountsAreMatchCounts | app.js:291-296 | with the application's catalogue every filler count is the number of whole-word match positions |
| Fillers.FillerCountBound | app.js:294-296 | matches do not overlap: count times phrase length is at most the text length |
| Fillers.NoMatchInsideWord | app.js:294 | the `\b` anchors reject a phrase followed by a word character ("like" in "likely") |
| Fillers.LikelyHasNoLike | app.js:294-296 | "like" is not counted inside "likely" |
| Fillers.LikeBeforeComma | app.js:294-296 | "like, really" has one "like" |
| Fillers.TwoWordPhraseCountedOnce | app.js:294-296 | "you know" is one match of the two-word phrase |
| Fillers.RepeatedPhraseCountedTwice | app.js:294-296 | "so so" has two matches of "so" |
| Fillers.FillerOccurrences | app.js:291-302 | an entry exists exactly for each catalogue phrase with a positive count, carries that count, in catalogue order |
| Fillers.FillerEntriesDistinct | app.js:293-302 | with a duplicate-free catalogue no phrase is reported twice |
| Fillers.Total | app.js:351 | the `reduce` sum is zero exactly when every entry's count is zero, and at least the number of entries when every count is positive |
| Fillers.TotalOfOccurrences | app.js:351 | the filler total is zero exactly when no entry was reported, and at least the number of entries |
| Fillers.TotalIsSumOfCounts | app.js:351 | the total equals the sum of every catalogue phrase's count |
| Pronunciation.MatchedWords | app.js:324 | the reported words are exactly the example words found as substrings, in catalogue order |
| Pronunciation.AnalyzePronunciation | app.js:311-329 | every issue comes from a catalogue entry, has a non-empty word list of occurring words, and issues follow catalogue order |
| Pronunciation.ReportedIff | app.js:315-320 | a challenge is reported exactly when one of its example words occurs in the text |
| Metrics.SpeakingRate | app.js:288-289 | the rate is words per minute rounded to the nearest integer, halves up |
| Metrics.SpeakingRateMonotone | app.js:289 | for a fixed duration more words never give a lower rate |
| Metrics.SpeakingRateOverOneMinute | app.js:289 | over exactly one minute the rate is the word count |
| Metrics.PauseCountIsMarkTotal | app.js:308 | the pause count is the number of `.`, `!` and `?` characters |
| Metrics.PauseCountIgnoresCase | app.js:308 | lower-casing does not change the pause count |
| Metrics.Analyze | app.js:282-309 | the metrics: word count (zero iff blank), duration, rounded rate, pause total, filler entries and issues of the lower-cased text |
| Metrics.AnalyzeSpeech | app.js:282-309 | the application's analysis counts the words of the transcript, keeps the duration, and takes the rate from that count and duration |
| Metrics.FillersReportedOnce | app.js:293-302 | with the application's catalogue each filler is reported at most once |
| Metrics.ElevenWordsInTenSeconds | app.js:284-289 | eleven words over ten seconds give a word count of 11 and 66 WPM |
| Feedback.RateBandOf | app.js:339-348 | the rate is slow exactly below 120 and fast exactly above 150 |
| Feedback.FillerBandOf | app.js:355-364 | no fillers exactly at a total of 0, many exactly above 3 |
| Feedback.DisplayRateLine | app.js:339-348 | the rate line warns exactly when the rate is below 120 or above 150 |
| Feedback.DisplayFillerLine | app.js:355-364 | the filler line warns exactly when the total is above 3 |
| Feedback.RateSuggestions | app.js:403-408 | at most one rate tip: the slow tip exactly below 120, the fast tip exactly above 150, none in between |
| Feedback.FillerSuggestions | app.js:410-415 | two filler tips exactly when the total is above 3, none otherwise |
| Feedback.GenerateSuggestions | app.js:400-425 | the list is the rate tip of the rate's band, then both filler tips when the total is above 3, then both pronunciation tips when there are issues, then the two general tips; each tip is present exactly when its band applies, so 2 to 7 tips |
| Feedback.DisplayAnalysis | app.js:331-397 | a feedback line warns exactly when the suggestions carry the matching tip |
| Chat.FirstFiring | app.js:483-505 | the chosen rule fires and no earlier rule does; none is chosen exactly when no rule fires |
| Chat.ChooseReply | app.js:479-538 | a canned answer is chosen exactly when some rule fires, and its topic is that of a firing rule with none firing before it; a stock choice is the supplied index |
| Chat.FirstMatchWins | app.js:479-505 | the first firing rule answers, whatever later rules or feedback keywords say |
| Chat.PronunciationWins | app.js:483-485 | any message containing "th" or "pronunciation" gets the pronunciation answer |
| Chat.ThShadowsFeedback | app.js:483-485 | "Feedback on the speech?" gets the pronunciation answer, since "the" contains "th" |
| Chat.PronunciationBeforeConfidence | app.js:483-501 | a message naming pronunciation and confidence gets the pronunciation answer |
| Chat.SummaryIff | app.js:479-527 | the summary is chosen exactly when no rule fires, the word count is positive and "feedback" or "analysis" occurs |
| Chat.StockOtherwise | app.js:529-538 | with no rule firing and no summary due, stock reply `pick` is chosen |
| Chat.RateSentence | app.js:512-519 | the summary's rate sentence quotes the rate in decimal |
| Chat.FillerSentence | app.js:520-523 | the summary's filler sentence is present exactly when there were fillers, and then quotes the total |
| Chat.FeedbackReply | app.js:510-525 | the summary opens with "Based on your recent speech: ", continues with the rate sentence of the rate's band and the filler sentence, and closes with the encouragement |
| Chat.TopicTextNotSummary | app.js:483-505 | no rule's canned answer ends like the summary |
| Chat.StockTextNotSummary | app.js:530-536 | no stock reply ends like the summary |
| Chat.ReplyTextIdentifiesSummary | app.js:479-538 | a reply's text ends with the closing encouragement exactly when it is the summary |
| Chat.FeedbackReplyIff | app.js:479-527 | the reply text is the summary exactly when no rule fires, the word count is positive and "feedback" or "analysis" occurs |
| Chat.GenerateChatResponse | app.js:479-538 | a rule's reply is that rule's answer text; the reply ends with the closing encouragement exactly when the summary was chosen, and is then the summary of the analysis; a stock choice gives stock reply `pick` |
| Chat.StockReplyOtherwise | app.js:529-538 | otherwise the reply is exactly stock reply `pick` |
| Session.StartRecording | app.js:181-194 | an idle start clears the transcript and the metrics and hides the panel, leaving the status and the badge alone; a start while recording changes nothing |
| Session.OnStart | app.js:152-156 | recording begins at the given time with the status "Listening..." |
| Session.HandleSpeechResult | app.js:211-225 | the transcript is replaced by the rebuilt one and nothing else changes |
| Session.ResetRecordingState | app.js:268-274 | the status reads "Recording stopped", the badge is hidden, nothing else changes |
| Session.HandleSpeechEnd | app.js:255-266 | recording stops and the badge is hidden; a non-blank transcript is analysed and shown; a blank one only changes the status to "No speech detected. Please try again."; the transcript and start time are never touched |
| Session.EndGateMatchesChatGate | app.js:255-266 | after a fresh start, the word count the coach checks is positive exactly when the transcript was not blank |
| Session.AnalysedIffWords | app.js:255-266 | a newly shown analysis always has a positive word count |
| Session.ErrorMessage | app.js:228-246 | unknown codes are reported as "Speech recognition error: " followed by the code |
| Session.UnknownErrorsDistinguished | app.js:244-245 | different unknown codes give different messages |
| Session.HandleSpeechErrorAsWritten | app.js:228-253 | as written, every error leaves the status "Recording stopped" and hides the badge, and changes nothing else: recording is still flagged as running until `onend` |
| Session.ErrorMessageOverwritten | app.js:248-272 | the message for "not-allowed" never reaches the status, and "network" and "no-speech" leave identical states |
| Session.HandleSpeechError | app.js:228-252 | corrected: the status shows the message for the code, after the controls are reset |
| Session.KnownErrorsDistinguished | app.js:231-243 | corrected: the four known errors give four different status lines |

## Left out

- DOM rendering is not modelled: innerHTML, colours, CSS classes, scrolling. The model keeps only the status text, the microphone badge visibility and the analysis-panel visibility.
- The speech-recognition API lifecycle is not modelled: feature detection, `recognition.start()`/`stop()`, its exceptions and the event timing. Events are inputs to the handlers.
- The exception path of `startRecording` (app.js:196-201), which reports a failed `recognition.start()` through `handleSpeechError`, is left out with the rest of the recogniser API.
- `stopRecording` is left out. It only asks the recogniser to stop, and the effect arrives as `handleSpeechEnd`.
- Chat plumbing is left out: `sendChatMessage`, the typing delay and the chat history. Only `generateChatResponse` is modelled.
- Settings, navigation and practice topics are not modelled; they are UI state outside the analysis.
- `typical_substitutions` in the challenge catalogue is never read by the analysis, so it is not modelled.
- The duration display (`minutes:seconds`) is left out, as is the pronunciation-issue HTML.
- Floating point is not modelled. The rate is the exact rational rounded half up. A zero duration, where JavaScript gives `Infinity`/`NaN`, is excluded by a precondition.
- Metrics.SpeakingRate: requires a positive duration, because the source has no guard and yields a non-number otherwise.
- Text.Lower: lower-cases only ASCII letters. Unicode case mapping is left out.
- Strings are sequences of Unicode scalar values rather than UTF-16 code units. Lengths differ only outside the Basic Multilingual Plane.
- Fillers.FillerCount: requires the phrase to be plain (letters, digits, `_`, space), so that interpolating it into a regular expression is literal. The application's catalogue meets this (`Fillers.CataloguePlain`).
- WordSplit.SplitOnSpaceRuns: the content of the pieces is stated through the words it yields (`WordsSplitAtSpace`, `WordsAppendWord`, `WordsOfJoin`, and the count `CountWords`). The empty pieces the raw split gives at a leading or trailing run are pinned only by the last-piece clause, because the code discards them at once.
- Metrics.AnalyzeSpeech: its contract states the word count, the duration and the rate. The filler, pause and pronunciation fields are stated on `Metrics.Analyze`, which it calls with the application's catalogues.

## Findings

| source | as written | input that shows it | evidently intended | confidence | as-written member | corrected member |
|---|---|---|---|---|---|---|
| app.js:248-272 | `handleSpeechError` writes the error message into the recording-status line and then calls `resetRecordingState`, which overwrites it with "Recording stopped" and hides the microphone badge showing "Error occurred" | error code "not-allowed": the status ends as "Recording stopped", not "Microphone access denied. ..." | the status line shows the message chosen for the error code | not executed; medium, since a later `onend` also rewrites the status | Session.HandleSpeechErrorAsWritten, Session.ErrorMessageOverwritten | Session.HandleSpeechError, Session.KnownErrorsDistinguished |

=== FILE: Chat.dfy ===
/** `generateChatResponse`: the scripted coach. Keyword rules are tried in a
    fixed order and the first that fires answers; otherwise a summary of the last
    analysis is given when asked for, and otherwise one of five stock replies.
    The choice of reply (`ChooseReply`) is kept apart from its wording
    (`ReplyText`). */
module Chat {
  import opened Text
  import opened Fillers
  import opened Metrics
  import opened Feedback

  datatype Option<T> = None | Some(value: T)

  /** The subject of a keyword rule's canned answer. */
  datatype Topic = PronunciationHelp | FillerHelp | InterviewHelp | RateHelp | ConfidenceHelp | AccentHelp

  /** A keyword rule: it fires when the lower-cased message contains any keyword. */
  datatype Rule = Rule(keywords: seq<string>, topic: Topic)

  /** The rules in the order the responder tries them. */
  const Rules: seq<Rule> := [
    Rule(["th", "pronunciation"], PronunciationHelp),
    Rule(["filler", "um", "uh"], FillerHelp),
    Rule(["interview"], InterviewHelp),
    Rule(["rate", "speed", "fast", "slow"], RateHelp),
    Rule(["confidence"], ConfidenceHelp),
    Rule(["accent", "indian english"], AccentHelp)
  ]

  predicate Fires(message: string, rule: Rule) {
    exists k :: k in rule.keywords && Contains(message, k)
  }

  /** The index of the first rule from `from` on that fires, if any. */
  function FirstFiring(message: string, rules: seq<Rule>, from: nat): (r: Option<nat>)
    requires from <= |rules|
    ensures r.Some? ==> from <= r.value < |rules| && Fires(message, rules[r.value])
    ensures r.Some? ==> forall j :: from <= j < r.value ==> !Fires(message, rules[j])
    ensures r.None? <==> forall j :: from <= j < |rules| ==> !Fires(message, rules[j])
    decreases |rules| - from
  {
    if from == |rules| then None
    else if Fires(message, rules[from]) then Some(from)
    else FirstFiring(message, rules, from + 1)
  }

  predicate AsksForFeedback(message: string) {
    Contains(message, "feedback") || Contains(message, "analysis")
  }

  /** Which kind of reply a message gets. */
  datatype Reply = Canned(topic: Topic) | Summary | Stock(index: nat)

  /** The decision of `generateChatResponse` for an already lower-cased message:
      the first firing rule, else the summary when the last analysis counted a
      word and the message asks for feedback or analysis, else stock reply `pick`. */
  function ChooseReply(message: string, data: SpeechData, pick: nat): (r: Reply)
    ensures r.Canned? <==> exists k :: 0 <= k < |Rules| && Fires(message, Rules[k])
    ensures r.Canned? ==>
      exists k :: 0 <= k < |Rules| && Fires(message, Rules[k]) && r.topic == Rules[k].topic
                  && forall j :: 0 <= j < k ==> !Fires(message, Rules[j])
    ensures r.Stock? ==> r.index == pick
  {
    match FirstFiring(message, Rules, 0)
    case Some(k) => Canned(Rules[k].topic)
    case None =>
      if data.wordCount > 0 && AsksForFeedback(message) then Summary else Stock(pick)
  }

  const PronunciationReply :=
    "For 'th' sounds, place your tongue between your "
      + "teeth and push air out. Practice with words like "
      + "'think', 'this', 'weather'. The key is to let "
      + "your tongue gently touch your teeth while making "
      + "the sound."
  const FillerReply :=
    "To reduce filler words, try these techniques: 1) "
      + "Pause instead of saying 'um' 2) Practice your "
      + "speech beforehand 3) Speak slower to give "
      + "yourself time to think 4) Record yourself to "
      + "become aware of your filler patterns."
  const InterviewReply :=
    "For interview preparation: 1) Practice the STAR "
      + "method (Situation, Task, Action, Result) 2) "
      + "Research common questions in your field 3) "
      + "Practice speaking clearly and confidently 4) "
      + "Prepare 2-3 questions to ask the interviewer. "
      + "Would you like to practice some mock interview "
      + "questions?"
  const RateReply :=
    "The ideal speaking rate is 120-150 words per "
      + "minute. If you're speaking too fast, focus on "
      + "breathing and pausing between thoughts. If too "
      + "slow, practice building confidence in your "
      + "content. Remember, varying your pace can make "
      + "your speech more engaging!"
  const ConfidenceReply :=
    "Building speaking confidence takes practice! "
      + "Start with: 1) Know your content well 2) Practice "
      + "in front of a mirror 3) Record yourself speaking "
      + "4) Start with small, supportive audiences 5) "
      + "Focus on your message, not your nervousness. "
      + "Remember, even experienced speakers feel nervous "
      + "sometimes!"
  const AccentReply :=
    "Indian English is perfectly valid! Focus on "
      + "clarity rather than changing your accent. Work "
      + "on: 1) Clear consonant sounds 2) Proper stress "
      + "patterns 3) Smooth linking between words 4) "
      + "Confident delivery. Your accent is part of your "
      + "identity - embrace it while working on clarity!"

  function TopicText(t: Topic): string {
    match t
    case PronunciationHelp => PronunciationReply
    case FillerHelp => FillerReply
    case InterviewHelp => InterviewReply
    case RateHelp => RateReply
    case ConfidenceHelp => ConfidenceReply
    case AccentHelp => AccentReply
  }

  /** The general-encouragement pool the last branch picks from. */
  const Responses: seq<string> := [
    "That's a great question! Speaking skills improve "
      + "with consistent practice. What specific area "
      + "would you like to focus on today?",
    "I'm here to help you become a more confident "
      + "speaker. Can you tell me more about your speaking "
      + "goals?",
    "Public speaking is a skill that can be learned "
      + "and improved. What challenges are you facing "
      + "currently?",
    "Remember, even professional speakers started as "
      + "beginners. What would you like to practice today?",
    "Your speaking journey is unique to you. Let's "
      + "work together to build your confidence and skills!"
  ]

  const FeedbackPrefix := "Based on your recent speech: "
  const FeedbackClosing := "Keep practicing - you're doing great!"

  const SlowRest := " WPM, which is a bit slow. Try building "
    + "confidence to naturally increase your pace. "
  const FastRest := " WPM, which is quite fast. Focus on slowing down "
    + "for better clarity. "

  function RateSentenceFor(b: RateBand, wpm: nat): string {
    match b
    case Slow => "You spoke at " + NatToString(wpm) + SlowRest
    case Fast => "You spoke at " + NatToString(wpm) + FastRest
    case Ideal => "Your speaking rate of " + NatToString(wpm) + " WPM is excellent! "
  }

  /** The rate sentence of the feedback reply, chosen by the same band as the
      analysis panel and the suggestions; it quotes the rate. */
  function RateSentence(wpm: nat): (r: string)
    ensures Contains(r, NatToString(wpm))
  {
    var r := RateSentenceFor(RateBandOf(wpm), wpm);
    var n := NatToString(wpm);
    if RateBandOf(wpm) == Ideal then
      OccursAfter("Your speaking rate of ", n, " WPM is excellent! ");
      r
    else
      OccursAfter("You spoke at ", n, if wpm < 120 then SlowRest else FastRest);
      r
  }

  /** The middle part of a concatenation occurs in it. */
  lemma OccursAfter(a: string, n: string, b: string)
    ensures Contains(a + n + b, n)
  {
    assert (a + n + b)[|a|..|a| + |n|] == n;
    assert OccursAt(a + n + b, n, |a|);
  }

  /** The filler sentence of the feedback reply: present exactly when the filler
      band is not the empty one. */
  function FillerSentence(total: nat): (r: string)
    ensures r == [] <==> FillerBandOf(total) == NoFillers
    ensures total > 0 ==> Contains(r, NatToString(total))
  {
    if total > 0 then
      OccursAfter("I noticed ", NatToString(total), " filler words. Try replacing these with pauses. ");
      "I noticed " + NatToString(total) + " filler words. Try replacing these with pauses. "
    else ""
  }

  /** The summary of the last analysis: the opening, the rate sentence, the
      filler sentence when there were fillers, and the closing encouragement. */
  function FeedbackReply(data: SpeechData): (r: string)
    ensures HasPrefix(r, FeedbackPrefix) && HasSuffix(r, FeedbackClosing)
    ensures |FeedbackPrefix| <= |r| - |FeedbackClosing|
    ensures r[|FeedbackPrefix|..|r| - |FeedbackClosing|]
      == RateSentenceFor(RateBandOf(data.speakingRate), data.speakingRate)
         + FillerSentence(Total(data.fillerWords))
  {
    var middle := RateSentence(data.speakingRate) + FillerSentence(Total(data.fillerWords));
    var r := FeedbackPrefix + middle + FeedbackClosing;
    assert r[..|FeedbackPrefix|] == FeedbackPrefix;
    assert r[|r| - |FeedbackClosing|..] == FeedbackClosing;
    assert r[|FeedbackPrefix|..|r| - |FeedbackClosing|] == middle;
    r
  }

  predicate HasPrefix(s: string, p: string) {
    |p| <= |s| && s[..|p|] == p
  }

  predicate HasSuffix(s: string, p: string) {
    |p| <= |s| && s[|s| - |p|..] == p
  }

  /** The wording of a reply. */
  function ReplyText(r: Reply, data: SpeechData): string
    requires r.Stock? ==> r.index < |Responses|
  {
    match r
    case Canned(t) => TopicText(t)
    case Summary => FeedbackReply(data)
    case Stock(i) => Responses[i]
  }

  /** The reply to a chat message, given the last analysis and the index `pick`
      standing in for `Math.floor(Math.random() * 5)`. */
  function GenerateChatResponse(userMessage: string, data: SpeechData, pick: nat): (r: string)
    requires pick < |Responses|
    ensures var c := ChooseReply(Lower(userMessage), data, pick);
      HasSuffix(r, FeedbackClosing) <==> c == Summary
    ensures var c := ChooseReply(Lower(userMessage), data, pick);
      c == Summary ==> r == FeedbackReply(data)
    ensures var c := ChooseReply(Lower(userMessage), data, pick);
      c.Stock? ==> r == Responses[pick]
    ensures var c := ChooseReply(Lower(userMessage), data, pick);
      c.Canned? ==> r == TopicText(c.topic)
  {
    var c := ChooseReply(Lower(userMessage), data, pick);
    ReplyTextIdentifiesSummary(c, data);
    ReplyText(c, data)
  }

  /** `FirstFiring` finds the one rule that fires with no firing rule before it. */
  lemma {:induction false} FirstFiringIsFirst(message: string, rules: seq<Rule>, k: nat)
    requires k < |rules|
    requires Fires(message, rules[k])
    requires forall j :: 0 <= j < k ==> !Fires(message, rules[j])
    ensures FirstFiring(message, rules, 0) == Some(k)
  {
    var r := FirstFiring(message, rules, 0);
    assert r.Some?;
    assert r.value == k;
  }

  /** First match wins: a rule answers when it fires and no earlier rule does,
      whatever later rules or the feedback keywords would say. */
  lemma FirstMatchWins(message: string, data: SpeechData, pick: nat, k: nat)
    requires k < |Rules|
    requires Fires(message, Rules[k])
    requires forall j :: 0 <= j < k ==> !Fires(message, Rules[j])
    ensures ChooseReply(message, data, pick) == Canned(Rules[k].topic)
  {
    FirstFiringIsFirst(message, Rules, k);
  }

  /** A message that mentions "pronunciation" (or merely contains "th") gets the
      pronunciation answer, since that rule is tried first. */
  lemma PronunciationWins(message: string, data: SpeechData, pick: nat)
    requires Contains(message, "pronunciation") || Contains(message, "th")
    ensures ChooseReply(message, data, pick) == Canned(PronunciationHelp)
  {
    assert Rules[0].keywords == ["th", "pronunciation"];
    assert Fires(message, Rules[0]);
    FirstFiringIsFirst(message, Rules, 0);
  }

  /** "th" is matched as a substring, so it also fires on ordinary words such as
      "the": a request for feedback that mentions "the speech" gets the
      pronunciation answer, even after an analysis. */
  lemma ThShadowsFeedback(data: SpeechData, pick: nat)
    ensures ChooseReply(Lower("Feedback on the speech?"), data, pick) == Canned(PronunciationHelp)
  {
    var m := Lower("Feedback on the speech?");
    assert m[12..14] == "th";
    assert OccursAt(m, "th", 12);
    PronunciationWins(m, data, pick);
  }

  /** Rules are not exclusive: a message about both pronunciation and confidence
      gets the pronunciation answer. */
  lemma PronunciationBeforeConfidence(data: SpeechData, pick: nat)
    ensures ChooseReply(Lower("Pronunciation and confidence"), data, pick) == Canned(PronunciationHelp)
  {
    var m := Lower("Pronunciation and confidence");
    assert m[..13] == "pronunciation";
    assert OccursAt(m, "pronunciation", 0);
    PronunciationWins(m, data, pick);
  }

  /** The summary is chosen if and only if no rule fires, the last analysis
      counted at least one word, and the message mentions "feedback" or
      "analysis"; it is gated on the word count, not on whether an analysis ran. */
  lemma SummaryIff(message: string, data: SpeechData, pick: nat)
    ensures ChooseReply(message, data, pick) == Summary
      <==> (forall j :: 0 <= j < |Rules| ==> !Fires(message, Rules[j]))
           && data.wordCount > 0 && AsksForFeedback(message)
  {
  }

  /** With no rule firing and no summary due, the reply is stock reply `pick`. */
  lemma StockOtherwise(message: string, data: SpeechData, pick: nat)
    requires forall j :: 0 <= j < |Rules| ==> !Fires(message, Rules[j])
    requires data.wordCount == 0 || !AsksForFeedback(message)
    ensures ChooseReply(message, data, pick) == Stock(pick)
  {
    assert FirstFiring(message, Rules, 0) == None;
  }

  /** No canned answer ends the way the summary does. */
  lemma TopicTextNotSummary(t: Topic)
    ensures !HasSuffix(TopicText(t), FeedbackClosing)
  {
    ClosingEnding();
    match t
    case PronunciationHelp => assert PronunciationReply[|PronunciationReply| - 1] == '.';
    case FillerHelp => assert FillerReply[|FillerReply| - 1] == '.';
    case InterviewHelp => assert InterviewReply[|InterviewReply| - 1] == '?';
    case RateHelp => assert RateReply[|RateReply| - 2] == 'g';
    case ConfidenceHelp => assert ConfidenceReply[|ConfidenceReply| - 2] == 's';
    case AccentHelp => assert AccentReply[|AccentReply| - 2] == 'y';
  }

  /** No stock reply ends the way the summary does. */
  lemma StockTextNotSummary(i: nat)
    requires i < |Responses|
    ensures !HasSuffix(Responses[i], FeedbackClosing)
  {
    ClosingEnding();
    if i < 4 {
      assert Responses[i][|Responses[i]| - 1] == '?';
    } else {
      assert Responses[i][|Responses[i]| - 2] == 's';
    }
  }

  lemma ClosingEnding()
    ensures |FeedbackClosing| == 37
    ensures FeedbackClosing[35] == 't' && FeedbackClosing[36] == '!'
  {
  }

  /** The wording tells the summary apart: a reply ends with the closing
      encouragement exactly when it is the summary. */
  lemma ReplyTextIdentifiesSummary(r: Reply, data: SpeechData)
    requires r.Stock? ==> r.index < |Responses|
    ensures HasSuffix(ReplyText(r, data), FeedbackClosing) <==> r == Summary
  {
    match r
    case Canned(t) => TopicTextNotSummary(t);
    case Summary =>
    case Stock(i) => StockTextNotSummary(i);
  }

  /** The reply text is the summary of the last analysis if and only if no rule
      fires on the lower-cased message, the last analysis counted a word, and
      the message mentions "feedback" or "analysis". */
  lemma FeedbackReplyIff(userMessage: string, data: SpeechData, pick: nat)
    requires pick < |Responses|
    ensures var m := Lower(userMessage);
      HasSuffix(GenerateChatResponse(userMessage, data, pick), FeedbackClosing)
      <==> (forall j :: 0 <= j < |Rules| ==> !Fires(m, Rules[j])) && data.wordCount > 0 && AsksForFeedback(m)
  {
    var m := Lower(userMessage);
    ReplyTextIdentifiesSummary(ChooseReply(m, data, pick), data);
    SummaryIff(m, data, pick);
  }

  /** Without a firing rule or a due summary the reply is one of the five stock replies. */
  lemma StockReplyOtherwise(userMessage: string, data: SpeechData, pick: nat)
    requires pick < |Responses|
    requires forall j :: 0 <= j < |Rules| ==> !Fires(Lower(userMessage), Rules[j])
    requires data.wordCount == 0 || !AsksForFeedback(Lower(userMessage))
    ensures GenerateChatResponse(userMessage, data, pick) == Responses[pick]
  {
    StockOtherwise(Lower(userMessage), data, pick);
  }
}

=== FILE: Feedback.dfy ===
/** The qualitative reading of the metrics: the rate and filler bands, the
    feedback lines of `displayAnalysis` and the list `generateSuggestions` builds. */
module Feedback {
  import opened Text
  import opened Fillers
  import opened Pronunciation
  import opened Metrics

  datatype RateBand = Slow | Ideal | Fast
  datatype FillerBand = NoFillers | Few | Many

  /** Speaking rate: below 120 WPM is slow, above 150 fast, 120..150 ideal. */
  function RateBandOf(wpm: int): (b: RateBand)
    ensures b == Slow <==> wpm < 120
    ensures b == Fast <==> wpm > 150
  {
    if wpm < 120 then Slow else if wpm > 150 then Fast else Ideal
  }

  /** Filler total: none, at most three, or more than three. */
  function FillerBandOf(total: nat): (b: FillerBand)
    ensures b == NoFillers <==> total == 0
    ensures b == Many <==> total > 3
  {
    if total == 0 then NoFillers else if total <= 3 then Few else Many
  }

  function RateRank(b: RateBand): nat {
    match b
    case Slow => 0
    case Ideal => 1
    case Fast => 2
  }

  function FillerRank(b: FillerBand): nat {
    match b
    case NoFillers => 0
    case Few => 1
    case Many => 2
  }

  /** The bands are ordered like the numbers they classify. */
  lemma BandsMonotone(a: int, b: int, m: nat, n: nat)
    requires a <= b && m <= n
    ensures RateRank(RateBandOf(a)) <= RateRank(RateBandOf(b))
    ensures FillerRank(FillerBandOf(m)) <= FillerRank(FillerBandOf(n))
  {
  }

  /** The thresholds at their edges. */
  lemma BandBoundaries()
    ensures RateBandOf(119) == Slow && RateBandOf(120) == Ideal
    ensures RateBandOf(150) == Ideal && RateBandOf(151) == Fast
    ensures FillerBandOf(0) == NoFillers && FillerBandOf(1) == Few
    ensures FillerBandOf(3) == Few && FillerBandOf(4) == Many
  {
  }

  datatype Tone = Success | Warning

  /** A feedback line of the analysis panel and the colour it is shown in. */
  datatype Line = Line(text: string, tone: Tone)

  function RateLineFor(b: RateBand): Line {
    match b
    case Slow => Line("Try speaking a bit faster", Warning)
    case Fast => Line("Try slowing down for clarity", Warning)
    case Ideal => Line("Great speaking pace!", Success)
  }

  function FillerLineFor(b: FillerBand): Line {
    match b
    case NoFillers => Line("Excellent! No filler words detected.", Success)
    case Few => Line("Good job keeping filler words minimal.", Success)
    case Many => Line("Try reducing filler words for clearer speech.", Warning)
  }

  /** The rate line of `displayAnalysis`: it depends on the rate only through its band. */
  function DisplayRateLine(wpm: int): (l: Line)
    ensures l.tone == Warning <==> wpm < 120 || wpm > 150
  {
    RateLineFor(RateBandOf(wpm))
  }

  /** The filler line of `displayAnalysis`: it depends on the total only through its band. */
  function DisplayFillerLine(total: nat): (l: Line)
    ensures l.tone == Warning <==> total > 3
  {
    FillerLineFor(FillerBandOf(total))
  }

  const SlowTip := "Practice speaking with more confidence to increase your pace naturally."
  const FastTip := "Take deeper breaths between sentences to slow down your speech."
  const FillerTips := ["Replace filler words with short pauses to sound more professional.",
                       "Practice your speech beforehand to reduce hesitation."]
  const PronunciationTips := ["Focus on the pronunciation challenges identified above.",
                              "Practice tongue twisters with your difficult sounds."]
  const GeneralTips := ["Record yourself regularly to track improvement over time.",
                        "Practice in front of a mirror to work on body language too."]

  /** The tips have pairwise different lengths, so no two of them are equal. */
  lemma TipLengths()
    ensures |SlowTip| == 71 && |FastTip| == 63
    ensures |FillerTips[0]| == 66 && |FillerTips[1]| == 53
    ensures |PronunciationTips[0]| == 55 && |PronunciationTips[1]| == 52
    ensures |GeneralTips[0]| == 57 && |GeneralTips[1]| == 59
  {
  }

  /** Each band tip differs from every tip of the other groups. */
  lemma TipsApart()
    ensures SlowTip != FastTip
    ensures SlowTip !in FillerTips && SlowTip !in PronunciationTips && SlowTip !in GeneralTips
    ensures FastTip !in FillerTips && FastTip !in PronunciationTips && FastTip !in GeneralTips
    ensures FillerTips[0] !in PronunciationTips && FillerTips[0] !in GeneralTips
    ensures FillerTips[1] !in PronunciationTips && FillerTips[1] !in GeneralTips
    ensures PronunciationTips[0] !in GeneralTips && PronunciationTips[1] !in GeneralTips
  {
    TipLengths();
  }

  function RateTipsFor(b: RateBand): seq<string> {
    match b
    case Slow => [SlowTip]
    case Fast => [FastTip]
    case Ideal => []
  }

  function FillerTipsFor(b: FillerBand): seq<string> {
    if b == Many then FillerTips else []
  }

  /** The rate part of `generateSuggestions`: it depends on the rate only through its band. */
  function RateSuggestions(wpm: int): (r: seq<string>)
    ensures |r| <= 1
    ensures r == [] <==> 120 <= wpm <= 150
    ensures SlowTip in r <==> wpm < 120
    ensures FastTip in r <==> wpm > 150
  {
    TipsApart();
    RateTipsFor(RateBandOf(wpm))
  }

  /** The filler part of `generateSuggestions`: it depends on the total only through its band. */
  function FillerSuggestions(total: nat): (r: seq<string>)
    ensures r != [] <==> total > 3
    ensures |r| == if total > 3 then 2 else 0
  {
    FillerTipsFor(FillerBandOf(total))
  }

  function PronunciationSuggestions(issues: seq<Issue>): seq<string> {
    if |issues| > 0 then PronunciationTips else []
  }

  /** `generateSuggestions`: band-specific tips, then the two general tips. */
  function GenerateSuggestions(data: SpeechData): (r: seq<string>)
    ensures 2 <= |r| <= 7
    ensures r[|r| - 2..] == GeneralTips
    ensures |r| == 2 + (if RateBandOf(data.speakingRate) == Ideal then 0 else 1)
                     + (if FillerBandOf(Total(data.fillerWords)) == Many then 2 else 0)
                     + (if data.pronunciationIssues == [] then 0 else 2)
    ensures SlowTip in r <==> RateBandOf(data.speakingRate) == Slow
    ensures FastTip in r <==> RateBandOf(data.speakingRate) == Fast
    ensures FillerTips[0] in r <==> FillerBandOf(Total(data.fillerWords)) == Many
    ensures FillerTips[1] in r <==> FillerBandOf(Total(data.fillerWords)) == Many
    ensures PronunciationTips[0] in r <==> data.pronunciationIssues != []
    ensures PronunciationTips[1] in r <==> data.pronunciationIssues != []
    ensures r == RateTipsFor(RateBandOf(data.speakingRate))
               + FillerTipsFor(FillerBandOf(Total(data.fillerWords)))
               + (if data.pronunciationIssues == [] then [] else PronunciationTips)
               + GeneralTips
  {
    var rate := RateSuggestions(data.speakingRate);
    var filler := FillerSuggestions(Total(data.fillerWords));
    var pron := PronunciationSuggestions(data.pronunciationIssues);
    TipPresence(rate, filler, pron);
    rate + filler + pron + GeneralTips
  }

  /** Which tips a concatenation of band tips and the general tips contains. */
  lemma TipPresence(rate: seq<string>, filler: seq<string>, pron: seq<string>)
    requires rate == [] || rate == [SlowTip] || rate == [FastTip]
    requires filler == [] || filler == FillerTips
    requires pron == [] || pron == PronunciationTips
    ensures var r := rate + filler + pron + GeneralTips;
      r[|r| - 2..] == GeneralTips
      && (SlowTip in r <==> rate == [SlowTip]) && (FastTip in r <==> rate == [FastTip])
      && (FillerTips[0] in r <==> filler != []) && (FillerTips[1] in r <==> filler != [])
      && (PronunciationTips[0] in r <==> pron != []) && (PronunciationTips[1] in r <==> pron != [])
  {
    TipsApart();
    var r := rate + filler + pron + GeneralTips;
    assert r[|r| - 2..] == GeneralTips;
    assert forall t :: t in r <==> t in rate || t in filler || t in pron || t in GeneralTips;
  }

  /** What `displayAnalysis` computes for the panel (the DOM writes aside). */
  datatype AnalysisView = AnalysisView(
    rateValue: string,
    rateLine: Line,
    fillerValue: string,
    fillerLine: Line,
    pauseValue: string,
    suggestions: seq<string>)

  function DisplayAnalysis(data: SpeechData): (v: AnalysisView)
    ensures v.rateLine.tone == Warning <==> (SlowTip in v.suggestions || FastTip in v.suggestions)
    ensures v.fillerLine.tone == Warning <==> FillerTips[0] in v.suggestions
  {
    var total := Total(data.fillerWords);
    AnalysisView(
      NatToString(data.speakingRate) + " WPM",
      DisplayRateLine(data.speakingRate),
      NatToString(total),
      DisplayFillerLine(total),
      NatToString(data.pauseCount),
      GenerateSuggestions(data))
  }
}

=== FILE: Fillers.dfy ===
/** Filler-word detection: for each catalogue phrase `f`, the number of matches
    of `new RegExp("\\b" + f + "\\b", "gi")` in the lower-cased transcript. */
module Fillers {
  import opened Text

  /** The filler catalogue, in its declared order. */
  const FillerCatalogue: seq<string> :=
    ["um", "uh", "like", "you know", "actually", "basically", "literally", "so", "well", "I mean"]

  /** A phrase whose characters have no special meaning in a regular expression
      (ASCII letters, digits, `_` and space), so interpolating it into the pattern
      matches it literally. */
  predicate PlainPhrase(f: string) {
    forall i :: 0 <= i < |f| ==> IsWordChar(f[i]) || f[i] == ' '
  }

  /** `\b` at position `k` of `s`: exactly one of the characters around `k` is a
      word character, a position outside the string counting as a non-word one. */
  predicate Boundary(s: string, k: int)
    requires 0 <= k <= |s|
  {
    (k > 0 && IsWordChar(s[k - 1])) != (k < |s| && IsWordChar(s[k]))
  }

  /** Character equality under the `i` flag, for the ASCII characters a plain phrase uses. */
  predicate SameIgnoringCase(a: string, b: string) {
    |a| == |b| && forall i :: 0 <= i < |a| ==> LowerChar(a[i]) == LowerChar(b[i])
  }

  /** `\bf\b` matches `s` at position `p`. */
  predicate MatchAt(s: string, f: string, p: int) {
    && 0 <= p && p + |f| <= |s|
    && Boundary(s, p)
    && SameIgnoringCase(s[p..p + |f|], f)
    && Boundary(s, p + |f|)
  }

  /** Where a global search resumes after a match at `p`: after the match, or one
      position further when the match was empty. */
  function Resume(f: string, p: nat): nat {
    if |f| == 0 then p + 1 else p + |f|
  }

  /** The matches `String.prototype.match` with a global pattern finds from
      position `i` on: the leftmost match, then the search resumes after it. */
  function CountFrom(s: string, f: string, i: nat): nat
    decreases |s| + 1 - i
  {
    if i > |s| then 0
    else if MatchAt(s, f, i) then 1 + CountFrom(s, f, Resume(f, i))
    else CountFrom(s, f, i + 1)
  }

  /** The number of whole-word, case-insensitive, non-overlapping matches of `f` in `s`. */
  function FillerCount(s: string, f: string): (r: nat)
    requires PlainPhrase(f)
    ensures r == 0 <==> forall p :: 0 <= p <= |s| ==> !MatchAt(s, f, p)
  {
    CountFromZeroIff(s, f, 0);
    CountFrom(s, f, 0)
  }

  /** Nothing is counted from `i` on exactly when no match starts at or after `i`. */
  lemma {:induction false} CountFromZeroIff(s: string, f: string, i: nat)
    ensures CountFrom(s, f, i) == 0 <==> forall p :: i <= p <= |s| ==> !MatchAt(s, f, p)
    decreases |s| + 1 - i
  {
    if i <= |s| && !MatchAt(s, f, i) {
      CountFromZeroIff(s, f, i + 1);
    }
  }

  /** A filler is counted exactly when the whole-word pattern matches somewhere. */
  lemma FillerCountPositiveIff(s: string, f: string)
    requires PlainPhrase(f)
    ensures FillerCount(s, f) > 0 <==> exists p :: 0 <= p <= |s| && MatchAt(s, f, p)
  {
    CountFromZeroIff(s, f, 0);
  }

  /** Matches do not overlap: together they occupy at most the characters that remain. */
  lemma {:induction false} CountFromBound(s: string, f: string, i: nat)
    requires |f| > 0
    requires i <= |s|
    ensures CountFrom(s, f, i) * |f| <= |s| - i
    decreases |s| + 1 - i
  {
    if MatchAt(s, f, i) {
      var c := CountFrom(s, f, i + |f|);
      assert CountFrom(s, f, i) == 1 + c;
      CountFromBound(s, f, i + |f|);
      Distribute(c, |f|);
    } else if i < |s| {
      CountFromBound(s, f, i + 1);
    }
  }

  lemma Distribute(c: nat, n: nat)
    ensures (1 + c) * n == n + c * n
  {
  }

  lemma FillerCountBound(s: string, f: string)
    requires PlainPhrase(f) && |f| > 0
    ensures FillerCount(s, f) * |f| <= |s|
  {
    CountFromBound(s, f, 0);
  }

  /** The number of positions from `i` on where `\bf\b` matches, counted
      independently of how a global search moves through the text. */
  function MatchPositions(s: string, f: string, i: nat): nat
    decreases |s| + 1 - i
  {
    if i > |s| then 0
    else (if MatchAt(s, f, i) then 1 else 0) + MatchPositions(s, f, i + 1)
  }

  /** A phrase that cannot match again strictly inside one of its own matches:
      at every inner position either no word boundary can fall (a word character
      on both sides) or the phrase's first character cannot start there. */
  predicate NoSelfOverlap(f: string) {
    && f != []
    && forall d :: 0 < d < |f| ==>
         (IsWordChar(f[d - 1]) && IsWordChar(f[d])) || LowerChar(f[d]) != LowerChar(f[0])
  }

  lemma LowerWordChar(c: char)
    ensures IsWordChar(LowerChar(c)) <==> IsWordChar(c)
  {
  }

  /** The character at offset `j` of a match agrees with the phrase's `j`-th character. */
  lemma MatchChar(s: string, f: string, p: int, j: int)
    requires MatchAt(s, f, p)
    requires 0 <= j < |f|
    ensures LowerChar(s[p + j]) == LowerChar(f[j])
  {
    assert s[p..p + |f|][j] == s[p + j];
  }

  /** No match of a self-overlap-free phrase starts inside another match of it. */
  lemma NoMatchInside(s: string, f: string, p: int, q: int)
    requires NoSelfOverlap(f)
    requires MatchAt(s, f, p)
    requires p < q < p + |f|
    ensures !MatchAt(s, f, q)
  {
    var d := q - p;
    MatchChar(s, f, p, d);
    if IsWordChar(f[d - 1]) && IsWordChar(f[d]) {
      MatchChar(s, f, p, d - 1);
      LowerWordChar(f[d - 1]);
      LowerWordChar(f[d]);
      LowerWordChar(s[q - 1]);
      LowerWordChar(s[q]);
      assert !Boundary(s, q);
    } else if MatchAt(s, f, q) {
      MatchChar(s, f, q, 0);
      assert false;
    }
  }

  /** Inside a match there is nothing further to count. */
  lemma {:induction false} SkipInside(s: string, f: string, p: int, j: nat)
    requires NoSelfOverlap(f)
    requires MatchAt(s, f, p)
    requires p < j <= p + |f|
    ensures MatchPositions(s, f, j) == MatchPositions(s, f, p + |f|)
    decreases p + |f| - j
  {
    if j < p + |f| {
      NoMatchInside(s, f, p, j);
      SkipInside(s, f, p, j + 1);
    }
  }

  /** The global search counts every match position: resuming after a match
      skips no other match, because none starts inside it. */
  lemma {:induction false} CountFromIsMatchPositions(s: string, f: string, i: nat)
    requires NoSelfOverlap(f)
    ensures CountFrom(s, f, i) == MatchPositions(s, f, i)
    decreases |s| + 1 - i
  {
    if i <= |s| {
      if MatchAt(s, f, i) {
        assert Resume(f, i) == i + |f|;
        CountFromIsMatchPositions(s, f, i + |f|);
        SkipInside(s, f, i, i + 1);
      } else {
        CountFromIsMatchPositions(s, f, i + 1);
      }
    }
  }

  /** The filler count is the number of positions where the phrase matches as a
      whole word, for any phrase that cannot overlap itself. */
  lemma FillerCountIsMatchCount(s: string, f: string)
    requires PlainPhrase(f) && NoSelfOverlap(f)
    ensures FillerCount(s, f) == MatchPositions(s, f, 0)
  {
    CountFromIsMatchPositions(s, f, 0);
  }

  /** Every phrase of the application's catalogue is self-overlap-free, so each
      of its counts is the number of match positions. */
  lemma CatalogueNoSelfOverlap()
    ensures forall f :: f in FillerCatalogue ==> NoSelfOverlap(f)
  {
    WordOnlyNoSelfOverlap("um");
    WordOnlyNoSelfOverlap("uh");
    WordOnlyNoSelfOverlap("like");
    WordOnlyNoSelfOverlap("actually");
    WordOnlyNoSelfOverlap("basically");
    WordOnlyNoSelfOverlap("literally");
    WordOnlyNoSelfOverlap("so");
    WordOnlyNoSelfOverlap("well");
    assert NoSelfOverlap("you know") by {
      assert "you know"[3] == ' ' && "you know"[4] == 'k';
    }
    assert NoSelfOverlap("I mean") by {
      assert "I mean"[1] == ' ' && "I mean"[2] == 'm';
    }
  }

  /** With the application's catalogue, every filler count is the number of
      positions where that filler matches as a whole word. */
  lemma CatalogueCountsAreMatchCounts(text: string)
    ensures forall f :: f in FillerCatalogue ==> FillerCount(text, f) == MatchPositions(text, f, 0)
  {
    CataloguePlain();
    CatalogueNoSelfOverlap();
    forall f | f in FillerCatalogue
      ensures FillerCount(text, f) == MatchPositions(text, f, 0)
    {
      FillerCountIsMatchCount(text, f);
    }
  }

  /** A single word has no inner word boundary, so it cannot overlap itself. */
  lemma WordOnlyNoSelfOverlap(f: string)
    requires f != [] && forall i :: 0 <= i < |f| ==> IsWordChar(f[i])
    ensures NoSelfOverlap(f)
  {
  }

  /** A match must end at a word boundary, so a phrase ending in a word character is
      not found where a word character follows it: "like" is not seen inside "likely". */
  lemma NoMatchInsideWord(s: string, f: string, p: int)
    requires f != [] && IsWordChar(f[|f| - 1])
    requires 0 <= p && p + |f| < |s| && SameIgnoringCase(s[p..p + |f|], f)
    requires IsWordChar(s[p + |f|])
    ensures !MatchAt(s, f, p)
  {
    var k := |f| - 1;
    assert s[p..p + |f|][k] == s[p + k];
    assert LowerChar(s[p + k]) == LowerChar(f[k]);
    assert IsWordChar(s[p + k]);
  }

  /** "like" is not counted inside "likely". */
  lemma LikelyHasNoLike()
    ensures FillerCount("likely", "like") == 0
  {
    assert !MatchAt("likely", "like", 0) by {
      NoMatchInsideWord("likely", "like", 0);
    }
    CountFromZeroIff("likely", "like", 1);
  }

  /** A comma after the phrase is a word boundary. */
  lemma LikeBeforeComma()
    ensures FillerCount("like, really", "like") == 1
  {
    assert MatchAt("like, really", "like", 0) by {
      assert "like, really"[0..4] == "like";
    }
    assert CountFrom("like, really", "like", 4) == 0 by {
      CountFromZeroIff("like, really", "like", 4);
    }
    assert FillerCount("like, really", "like") == 1 + CountFrom("like, really", "like", 4);
  }

  /** A two-word phrase is one match. */
  lemma TwoWordPhraseCountedOnce()
    ensures FillerCount("you know", "you know") == 1
  {
    assert MatchAt("you know", "you know", 0) by {
      assert "you know"[0..8] == "you know";
    }
  }

  /** Repeated phrases are counted each time. */
  lemma RepeatedPhraseCountedTwice()
    ensures FillerCount("so so", "so") == 2
  {
    assert MatchAt("so so", "so", 0) by {
      assert "so so"[0..2] == "so";
    }
    assert !MatchAt("so so", "so", 2);
    assert MatchAt("so so", "so", 3) by {
      assert "so so"[3..5] == "so";
    }
  }

  /** One entry of `speechData.fillerWords`. */
  datatype FillerEntry = FillerEntry(word: string, count: nat)

  function EntryWords(es: seq<FillerEntry>): (r: seq<string>)
    ensures |r| == |es|
    ensures forall k :: 0 <= k < |es| ==> r[k] == es[k].word
  {
    if es == [] then [] else [es[0].word] + EntryWords(es[1..])
  }

  /** The filler entries of a lower-cased transcript: one per catalogue phrase that
      matches, with its count, in catalogue order. */
  function FillerOccurrences(text: string, fillers: seq<string>): (r: seq<FillerEntry>)
    requires forall f :: f in fillers ==> PlainPhrase(f)
    ensures forall e :: e in r ==> e.count > 0 && e.word in fillers && e.count == FillerCount(text, e.word)
    ensures forall f :: f in fillers ==> (f in EntryWords(r) <==> FillerCount(text, f) > 0)
    ensures IsSubsequence(EntryWords(r), fillers)
  {
    if fillers == [] then []
    else
      var f := fillers[0];
      var c := FillerCount(text, f);
      var rest := FillerOccurrences(text, fillers[1..]);
      assert forall g :: g in fillers[1..] ==> g in fillers;
      if c > 0 then [FillerEntry(f, c)] + rest else rest
  }

  /** With a duplicate-free catalogue, each filler is reported at most once. */
  lemma FillerEntriesDistinct(text: string, fillers: seq<string>)
    requires forall f :: f in fillers ==> PlainPhrase(f)
    requires Distinct(fillers)
    ensures Distinct(EntryWords(FillerOccurrences(text, fillers)))
  {
    SubsequenceDistinct(EntryWords(FillerOccurrences(text, fillers)), fillers);
  }

  lemma CataloguePlain()
    ensures forall f :: f in FillerCatalogue ==> PlainPhrase(f) && |f| > 0
  {
  }

  lemma CatalogueDistinct()
    ensures Distinct(FillerCatalogue)
  {
  }

  /** The `reduce` that sums the counts. */
  function Total(es: seq<FillerEntry>): (r: nat)
    ensures r == 0 <==> forall k :: 0 <= k < |es| ==> es[k].count == 0
    ensures (forall k :: 0 <= k < |es| ==> es[k].count > 0) ==> r >= |es|
  {
    if es == [] then 0
    else
      assert forall k :: 1 <= k < |es| ==> es[1..][k - 1] == es[k];
      es[0].count + Total(es[1..])
  }

  /** The total is zero exactly when no filler was reported, and at least one per entry. */
  lemma {:induction false} TotalOfOccurrences(text: string, fillers: seq<string>)
    requires forall f :: f in fillers ==> PlainPhrase(f)
    ensures var es := FillerOccurrences(text, fillers);
      Total(es) >= |es| && (Total(es) == 0 <==> es == [])
  {
    if fillers != [] {
      assert forall g :: g in fillers[1..] ==> g in fillers;
      TotalOfOccurrences(text, fillers[1..]);
    }
  }

  /** The total is the sum of the per-phrase counts over the whole catalogue. */
  lemma {:induction false} TotalIsSumOfCounts(text: string, fillers: seq<string>)
    requires forall f :: f in fillers ==> PlainPhrase(f)
    ensures Total(FillerOccurrences(text, fillers)) == SumCounts(text, fillers)
  {
    if fillers != [] {
      assert forall g :: g in fillers[1..] ==> g in fillers;
      TotalIsSumOfCounts(text, fillers[1..]);
    }
  }

  function SumCounts(text: string, fillers: seq<string>): nat
    requires forall f :: f in fillers ==> PlainPhrase(f)
  {
    if fillers == [] then 0
    else
      assert forall g :: g in fillers[1..] ==> g in fillers;
      FillerCount(text, fillers[0]) + SumCounts(text, fillers[1..])
  }
}

=== FILE: Metrics.dfy ===
/** `analyzeSpeech`: the metrics computed once a recording with a non-blank
    transcript ends. */
module Metrics {
  import opened Text
  import opened WordSplit
  import opened Fillers
  import opened Pronunciation

  /** `speechData`. The duration is kept in milliseconds (`endTime - startTime`)
      instead of the source's seconds. */
  datatype SpeechData = SpeechData(
    wordCount: nat,
    fillerWords: seq<FillerEntry>,
    pauseCount: nat,
    pronunciationIssues: seq<Issue>,
    speakingRate: nat,
    durationMs: nat)

  /** The value `speechData` holds before any analysis, and after the reset at
      the start of a recording. */
  const InitialData := SpeechData(0, [], 0, [], 0, 0)

  /** `Math.round(wordCount / (ms / 1000) * 60)` in exact integer arithmetic:
      words per minute, rounded to the nearest integer with halves rounded up. */
  function SpeakingRate(wordCount: nat, ms: int): (r: nat)
    requires ms > 0
    ensures 2 * ms * r <= 120000 * wordCount + ms < 2 * ms * r + 2 * ms
  {
    (2 * wordCount * 60000 + ms) / (2 * ms)
  }

  /** For a fixed duration, more words never give a lower rate. */
  lemma SpeakingRateMonotone(w1: nat, w2: nat, ms: int)
    requires ms > 0
    requires w1 <= w2
    ensures SpeakingRate(w1, ms) <= SpeakingRate(w2, ms)
  {
    var r1 := SpeakingRate(w1, ms);
    var r2 := SpeakingRate(w2, ms);
    assert 2 * ms * r1 < 2 * ms * (r2 + 1);
    MultiplyCancel(2 * ms, r1, r2 + 1);
  }

  lemma MultiplyCancel(a: int, b: int, c: int)
    requires a > 0
    requires a * b < a * c
    ensures b < c
  {
  }

  /** Over exactly one minute the rate is the word count itself. */
  lemma SpeakingRateOverOneMinute(wordCount: nat)
    ensures SpeakingRate(wordCount, 60000) == wordCount
  {
    var r := SpeakingRate(wordCount, 60000);
    assert 120000 * r <= 120000 * wordCount + 60000 < 120000 * r + 120000;
  }

  predicate IsPauseMark(c: char) {
    c == '.' || c == '!' || c == '?'
  }

  /** `(text.match(/[.!?]/g) || []).length`. */
  function PauseCount(s: string): (r: nat)
    ensures r <= |s|
  {
    if s == [] then 0
    else PauseCount(s[..|s| - 1]) + (if IsPauseMark(s[|s| - 1]) then 1 else 0)
  }

  /** The pause count is the number of full stops, exclamation marks and question
      marks in the text, whatever their positions. */
  lemma {:induction false} PauseCountIsMarkTotal(s: string)
    ensures PauseCount(s) == multiset(s)['.'] + multiset(s)['!'] + multiset(s)['?']
  {
    if s != [] {
      var init := s[..|s| - 1];
      assert s == init + [s[|s| - 1]];
      assert multiset(s) == multiset(init) + multiset{s[|s| - 1]};
      PauseCountIsMarkTotal(init);
    }
  }

  /** Lower-casing leaves punctuation alone, so it does not change the pause count. */
  lemma {:induction false} PauseCountIgnoresCase(s: string)
    ensures PauseCount(Lower(s)) == PauseCount(s)
  {
    if s != [] {
      var init := s[..|s| - 1];
      assert s == init + [s[|s| - 1]];
      LowerSnoc(init, s[|s| - 1]);
      var ls := Lower(s);
      assert ls[..|ls| - 1] == Lower(init);
      PauseCountIgnoresCase(init);
    }
  }

  /** The word count `analyzeSpeech` takes from the lower-cased transcript. */
  function WordCount(transcript: string): (n: nat)
    ensures n == |Words(transcript)|
    ensures n == 0 <==> AllSpace(transcript)
  {
    WordCountIgnoresCase(transcript);
    NoWordsIffAllSpace(transcript);
    |Words(Lower(transcript))|
  }

  /** The pause count `analyzeSpeech` takes from the lower-cased transcript. */
  function Pauses(transcript: string): (n: nat)
    ensures n == multiset(transcript)['.'] + multiset(transcript)['!'] + multiset(transcript)['?']
  {
    PauseCountIgnoresCase(transcript);
    PauseCountIsMarkTotal(transcript);
    PauseCount(Lower(transcript))
  }

  /** The metrics of a transcript recorded from `startMs` to `endMs` against the
      given catalogues. All matching runs on the lower-cased transcript. */
  function Analyze(transcript: string, startMs: int, endMs: int,
                   fillers: seq<string>, challenges: seq<Challenge>): (r: SpeechData)
    requires endMs > startMs
    requires forall f :: f in fillers ==> PlainPhrase(f)
    ensures r.wordCount == |Words(transcript)|
    ensures r.wordCount == 0 <==> AllSpace(transcript)
    ensures r.durationMs == endMs - startMs
    ensures 2 * r.durationMs * r.speakingRate <= 120000 * r.wordCount + r.durationMs
                                            < 2 * r.durationMs * (r.speakingRate + 1)
    ensures r.pauseCount == multiset(transcript)['.'] + multiset(transcript)['!'] + multiset(transcript)['?']
    ensures r.fillerWords == FillerOccurrences(Lower(transcript), fillers)
    ensures r.pronunciationIssues == AnalyzePronunciation(Lower(transcript), challenges)
  {
    var lower := Lower(transcript);
    var wordCount := WordCount(transcript);
    var ms := endMs - startMs;
    var rate := SpeakingRate(wordCount, ms);
    assert 2 * ms * rate <= 120000 * wordCount + ms < 2 * ms * (rate + 1);
    SpeechData(
      wordCount,
      FillerOccurrences(lower, fillers),
      Pauses(transcript),
      AnalyzePronunciation(lower, challenges),
      rate,
      ms)
  }

  /** `analyzeSpeech` with the application's own catalogues. */
  function AnalyzeSpeech(transcript: string, startMs: int, endMs: int): (r: SpeechData)
    requires endMs > startMs
    ensures r.wordCount == |Words(transcript)|
    ensures r.durationMs == endMs - startMs
    ensures r.speakingRate == SpeakingRate(r.wordCount, r.durationMs)
  {
    CataloguePlain();
    Analyze(transcript, startMs, endMs, FillerCatalogue, ChallengeCatalogue)
  }

  /** With the application's catalogue each filler is reported at most once. */
  lemma FillersReportedOnce(transcript: string, startMs: int, endMs: int)
    requires endMs > startMs
    ensures Distinct(EntryWords(AnalyzeSpeech(transcript, startMs, endMs).fillerWords))
  {
    CataloguePlain();
    CatalogueDistinct();
    FillerEntriesDistinct(Lower(transcript), FillerCatalogue);
  }

  /** Eleven words spoken over ten seconds, such as "um so I think this is like
      really important you know", are counted as eleven words at 66 words per minute. */
  lemma ElevenWordsInTenSeconds(ws: seq<string>, startMs: int,
                                fillers: seq<string>, challenges: seq<Challenge>)
    requires |ws| == 11
    requires forall k :: 0 <= k < |ws| ==> ws[k] != [] && NoSpace(ws[k])
    requires forall f :: f in fillers ==> PlainPhrase(f)
    ensures var r := Analyze(JoinWithSpaces(ws), startMs, startMs + 10000, fillers, challenges);
      r.wordCount == 11 && r.speakingRate == 66
  {
    WordsOfJoin(ws);
    ElevenInTenIs66();
  }

  lemma ElevenInTenIs66()
    ensures SpeakingRate(11, 10000) == 66
  {
    var r := SpeakingRate(11, 10000);
    assert 20000 * r <= 1330000 < 20000 * r + 20000;
  }
}

=== FILE: Pronunciation.dfy ===
/** `analyzePronunciation`: which catalogued pronunciation challenges the
    lower-cased transcript touches, by plain substring search for their example words. */
module Pronunciation {
  import opened Text

  /** One entry of `common_pronunciation_challenges`; `key` is its property name. */
  datatype Challenge = Challenge(key: string, name: string, exampleWords: seq<string>, tip: string)

  /** One entry of `speechData.pronunciationIssues`. */
  datatype Issue = Issue(kind: string, challenge: string, words: seq<string>, tip: string)

  /** The catalogue in property order (the order `Object.entries` visits it). */
  const ChallengeCatalogue: seq<Challenge> := [
    Challenge("th_sounds", "Dental fricatives (th sounds)",
      ["think", "this", "weather", "breath"],
      "Place your tongue between your teeth and push air "
        + "out to make the correct 'th' sound."),
    Challenge("v_w_sounds", "V and W confusion",
      ["very", "wine", "vest", "west"],
      "For 'V', touch your upper teeth to your lower "
        + "lip. For 'W', round your lips without teeth "
        + "contact."),
    Challenge("r_sounds", "R pronunciation",
      ["red", "car", "professor", "right"],
      "For English 'R', curl your tongue back without "
        + "touching the roof of your mouth."),
    Challenge("schwa_sounds", "Reduced vowels (schwa)",
      ["about", "banana", "computer", "support"],
      "Relax your mouth for unstressed syllables, making "
        + "a neutral 'uh' sound.")
  ]

  /** `text.includes(word.toLowerCase())`. */
  predicate Occurs(text: string, word: string) {
    Contains(text, Lower(word))
  }

  /** `example_words.filter(...)`: the example words found in the text, in catalogue order. */
  function MatchedWords(text: string, words: seq<string>): (r: seq<string>)
    ensures IsSubsequence(r, words)
    ensures forall w :: w in r ==> w in words
    ensures forall w :: w in words ==> (w in r <==> Occurs(text, w))
  {
    if words == [] then []
    else
      var rest := MatchedWords(text, words[1..]);
      assert forall w :: w in words[1..] ==> w in words;
      if Occurs(text, words[0]) then [words[0]] + rest else rest
  }

  /** `example_words.some(...)`. */
  predicate HasChallengingWord(text: string, c: Challenge) {
    exists w :: w in c.exampleWords && Occurs(text, w)
  }

  function Keys(cs: seq<Challenge>): (r: seq<string>)
    ensures |r| == |cs|
    ensures forall k :: 0 <= k < |cs| ==> r[k] == cs[k].key
  {
    if cs == [] then [] else [cs[0].key] + Keys(cs[1..])
  }

  function Kinds(issues: seq<Issue>): (r: seq<string>)
    ensures |r| == |issues|
    ensures forall k :: 0 <= k < |issues| ==> r[k] == issues[k].kind
  {
    if issues == [] then [] else [issues[0].kind] + Kinds(issues[1..])
  }

  /** The issues of a lower-cased transcript: one per challenge with a matched
      example word, carrying the words found, in catalogue order. */
  function AnalyzePronunciation(text: string, catalogue: seq<Challenge>): (r: seq<Issue>)
    ensures |r| <= |catalogue|
    ensures forall iss :: iss in r ==> iss.words != [] && forall w :: w in iss.words ==> Occurs(text, w)
    ensures IsSubsequence(Kinds(r), Keys(catalogue))
    ensures forall iss :: iss in r ==> exists c :: c in catalogue && IssueOf(text, c, iss)
  {
    if catalogue == [] then []
    else
      var c := catalogue[0];
      var rest := AnalyzePronunciation(text, catalogue[1..]);
      assert Keys(catalogue) == [c.key] + Keys(catalogue[1..]);
      assert forall d :: d in catalogue[1..] ==> d in catalogue;
      if HasChallengingWord(text, c) then
        var words := MatchedWords(text, c.exampleWords);
        var w :| w in c.exampleWords && Occurs(text, w);
        assert w in words;
        var iss := Issue(c.key, c.name, words, c.tip);
        assert IssueOf(text, c, iss);
        assert Kinds([iss] + rest) == [c.key] + Kinds(rest);
        [iss] + rest
      else rest
  }

  /** `iss` is the issue challenge `c` produces for `text`. */
  predicate IssueOf(text: string, c: Challenge, iss: Issue) {
    iss == Issue(c.key, c.name, MatchedWords(text, c.exampleWords), c.tip)
  }

  /** A challenge is reported exactly when one of its example words occurs in the
      text (for a catalogue whose keys are distinct, as property names are). */
  lemma {:induction false} ReportedIff(text: string, catalogue: seq<Challenge>, j: nat)
    requires Distinct(Keys(catalogue))
    requires j < |catalogue|
    ensures catalogue[j].key in Kinds(AnalyzePronunciation(text, catalogue))
        <==> HasChallengingWord(text, catalogue[j])
  {
    var c := catalogue[0];
    var rest := AnalyzePronunciation(text, catalogue[1..]);
    var r := AnalyzePronunciation(text, catalogue);
    assert Keys(catalogue) == [c.key] + Keys(catalogue[1..]);
    assert Distinct(Keys(catalogue[1..])) by {
      forall a, b | 0 <= a < b < |catalogue[1..]|
        ensures Keys(catalogue[1..])[a] != Keys(catalogue[1..])[b]
      {
        assert Keys(catalogue[1..])[a] == Keys(catalogue)[a + 1];
        assert Keys(catalogue[1..])[b] == Keys(catalogue)[b + 1];
      }
    }
    if HasChallengingWord(text, c) {
      assert Kinds(r) == [r[0].kind] + Kinds(rest);
    } else {
      assert r == rest;
    }
    if j == 0 {
      // the first key does not reappear among the later ones
      assert c.key !in Keys(catalogue[1..]) by {
        forall k | 0 <= k < |Keys(catalogue[1..])|
          ensures Keys(catalogue[1..])[k] != c.key
        {
          assert Keys(catalogue[1..])[k] == Keys(catalogue)[k + 1];
        }
      }
      SubsequenceNonMembers(Kinds(rest), Keys(catalogue[1..]), c.key);
    } else {
      ReportedIff(text, catalogue[1..], j - 1);
      assert catalogue[1..][j - 1] == catalogue[j];
      assert catalogue[j].key != c.key by {
        assert Keys(catalogue)[j] == catalogue[j].key;
      }
    }
  }

  lemma CatalogueKeysDistinct()
    ensures Distinct(Keys(ChallengeCatalogue))
  {
  }
}

=== FILE: Session.dfy ===
/** The recording lifecycle around the analysis: the transcript a result event
    leaves behind, the blank-transcript gate when recognition ends, and the
    status line an error produces. Times are milliseconds supplied by the caller
    in place of `new Date()`. */
module Session {
  import opened Text
  import opened WordSplit
  import opened Transcript
  import opened Metrics

  /** The part of the application's state these handlers read and write. The
      status is the text of the recording-status line; `micHidden` and
      `analysisShown` stand for the visibility of the microphone badge and of the
      analysis panel. */
  datatype State = State(
    transcript: string,
    data: SpeechData,
    isRecording: bool,
    startMs: int,
    status: string,
    micHidden: bool,
    analysisShown: bool)

  const StoppedStatus := "Recording stopped"
  const NoSpeechStatus := "No speech detected. Please try again."
  const ListeningStatus := "Listening..."

  /** `startRecording` when recognition is idle: the transcript and the metrics are
      cleared and the analysis panel hidden; nothing happens while recording. */
  function StartRecording(st: State): (r: State)
    ensures st.isRecording ==> r == st
    ensures !st.isRecording ==> r.transcript == [] && r.data == InitialData && !r.analysisShown
    ensures r.isRecording == st.isRecording && r.startMs == st.startMs && r.status == st.status
    ensures r.micHidden == st.micHidden
  {
    if st.isRecording then st
    else st.(transcript := [], data := InitialData, analysisShown := false)
  }

  /** The recognizer's `onstart` callback: recording begins at `nowMs`. */
  function OnStart(st: State, nowMs: int): (r: State)
    ensures r.isRecording && r.startMs == nowMs && r.status == ListeningStatus && !r.micHidden
    ensures r.transcript == st.transcript && r.data == st.data && r.analysisShown == st.analysisShown
  {
    st.(isRecording := true, startMs := nowMs, status := ListeningStatus, micHidden := false)
  }

  /** `handleSpeechResult`: the transcript becomes the rebuilt text of the event's
      pending results; what was there before is discarded, and nothing else changes. */
  method HandleSpeechResult(st: State, ev: RecognitionEvent) returns (r: State)
    ensures r.transcript == Rebuild(ev)
    ensures r == st.(transcript := r.transcript)
  {
    var text := Transcript.HandleSpeechResult(ev);
    r := st.(transcript := text);
  }

  /** `handleSpeechEnd` at time `endMs`: recording stops, and the transcript is
      analysed exactly when it is not blank; a blank one only changes the status.
      Ending a non-blank recording needs a positive duration. */
  function HandleSpeechEnd(st: State, endMs: int): (r: State)
    requires Trim(st.transcript) != [] ==> endMs > st.startMs
    ensures !r.isRecording && r.micHidden && r.transcript == st.transcript
    ensures Trim(st.transcript) != [] ==>
      r.data == AnalyzeSpeech(st.transcript, st.startMs, endMs) && r.analysisShown && r.status == StoppedStatus
    ensures Trim(st.transcript) == [] ==>
      r.data == st.data && r.analysisShown == st.analysisShown && r.status == NoSpeechStatus
    ensures r == st.(isRecording := false, micHidden := true, status := r.status,
                     data := r.data, analysisShown := r.analysisShown)
  {
    var stopped := ResetRecordingState(st.(isRecording := false));
    if Trim(st.transcript) != [] then
      stopped.(data := AnalyzeSpeech(st.transcript, st.startMs, endMs), analysisShown := true)
    else
      stopped.(status := NoSpeechStatus)
  }

  /** `resetRecordingState`: controls back to idle, the status reads "Recording
      stopped" and the microphone badge is hidden. */
  function ResetRecordingState(st: State): (r: State)
    ensures r.status == StoppedStatus && r.micHidden
    ensures r == st.(status := r.status, micHidden := true)
  {
    st.(status := StoppedStatus, micHidden := true)
  }

  /** After a fresh start, the word count the chat coach checks is positive
      exactly when the ended recording's transcript was not blank, whatever
      results arrived in between. */
  lemma EndGateMatchesChatGate(st: State, startMs: int, ev: RecognitionEvent, endMs: int)
    requires !st.isRecording
    requires Trim(Rebuild(ev)) != [] ==> endMs > startMs
    ensures var recording := OnStart(StartRecording(st), startMs);
      var heard := recording.(transcript := Rebuild(ev));
      HandleSpeechEnd(heard, endMs).data.wordCount > 0 <==> Trim(Rebuild(ev)) != []
  {
    var text := Rebuild(ev);
    TrimGateIffWords(text);
  }

  /** The blank gate and the word count agree: a transcript passes the gate
      exactly when it has a word, so an analysis never reports zero words. */
  lemma AnalysedIffWords(st: State, endMs: int)
    requires Trim(st.transcript) != [] ==> endMs > st.startMs
    ensures HandleSpeechEnd(st, endMs).analysisShown && !st.analysisShown
        ==> HandleSpeechEnd(st, endMs).data.wordCount > 0
    ensures Trim(st.transcript) != [] <==> |Words(st.transcript)| > 0
  {
    TrimGateIffWords(st.transcript);
  }

  const NoSpeechMessage := "No speech detected. Please try speaking louder."
  const AudioCaptureMessage := "Microphone not available. Please check your microphone settings."
  const NotAllowedMessage := "Microphone access denied. Please allow microphone access and try again."
  const NetworkMessage := "Network error occurred. Please check your internet connection."

  /** The status line `handleSpeechError` composes for a recognizer error code. */
  function ErrorMessage(code: string): (m: string)
    ensures code !in KnownErrors ==> m == DefaultErrorPrefix + code
  {
    if code == "no-speech" then NoSpeechMessage
    else if code == "audio-capture" then AudioCaptureMessage
    else if code == "not-allowed" then NotAllowedMessage
    else if code == "network" then NetworkMessage
    else DefaultErrorPrefix + code
  }

  const KnownErrors := ["no-speech", "audio-capture", "not-allowed", "network"]
  const DefaultErrorPrefix := "Speech recognition error: "

  /** Unknown codes are reported verbatim, so two different unknown codes never
      produce the same message. */
  lemma UnknownErrorsDistinguished(a: string, b: string)
    requires a !in KnownErrors && b !in KnownErrors
    requires ErrorMessage(a) == ErrorMessage(b)
    ensures a == b
  {
    var p := DefaultErrorPrefix;
    assert (p + a)[|p|..] == a;
    assert (p + b)[|p|..] == b;
  }

  /** `handleSpeechError` as written: it sets the status to the error message and
      then calls `resetRecordingState`, which overwrites it with "Recording stopped". */
  function HandleSpeechErrorAsWritten(st: State, code: string): (r: State)
    ensures r.status == StoppedStatus && r.micHidden
    ensures r == st.(status := r.status, micHidden := true)
  {
    ResetRecordingState(st.(status := ErrorMessage(code)))
  }

  /** The error message never reaches the status line: every code, known or not,
      leaves the same status behind. */
  lemma ErrorMessageOverwritten(st: State)
    ensures HandleSpeechErrorAsWritten(st, "not-allowed").status != ErrorMessage("not-allowed")
    ensures HandleSpeechErrorAsWritten(st, "network") == HandleSpeechErrorAsWritten(st, "no-speech")
  {
    assert |NotAllowedMessage| != |StoppedStatus|;
  }

  /** `handleSpeechError` as evidently intended: the controls are reset and the
      status line then shows the message for the error code. */
  function HandleSpeechError(st: State, code: string): (r: State)
    ensures r.status == ErrorMessage(code) && r.micHidden
    ensures r == st.(status := r.status, micHidden := true)
  {
    ResetRecordingState(st).(status := ErrorMessage(code))
  }

  /** With the correction, different known errors are told apart by the status line. */
  lemma KnownErrorsDistinguished(st: State)
    ensures forall i, j :: 0 <= i < j < |KnownErrors| ==>
      HandleSpeechError(st, KnownErrors[i]).status != HandleSpeechError(st, KnownErrors[j]).status
  {
    ErrorMessageLengths();
  }

  /** The four fixed messages have pairwise different lengths. */
  lemma ErrorMessageLengths()
    ensures |NoSpeechMessage| == 47 && |AudioCaptureMessage| == 64
    ensures |NotAllowedMessage| == 71 && |NetworkMessage| == 62
  {
  }
}

=== FILE: Text.dfy ===
/** Character classes and string helpers shared by the analysis layer:
    JavaScript's `\s` and `\w` classes, ASCII `toLowerCase`, `includes`,
    `trim`, and the decimal rendering of a number inside a template string. */
module Text {

  /** JavaScript's `\s` class: WhiteSpace plus LineTerminator. `String.prototype.trim`
      strips exactly the same set. */
  predicate IsSpace(c: char) {
    || c == ' ' || c == '\t' || c == '\n' || c == '\r' || c == '\U{000B}' || c == '\U{000C}'
    || c == '\U{00A0}' || c == '\U{1680}' || ('\U{2000}' <= c <= '\U{200A}')
    || c == '\U{2028}' || c == '\U{2029}' || c == '\U{202F}' || c == '\U{205F}'
    || c == '\U{3000}' || c == '\U{FEFF}'
  }

  /** JavaScript's `\w` class, the one `\b` is defined against. */
  predicate IsWordChar(c: char) {
    ('a' <= c <= 'z') || ('A' <= c <= 'Z') || ('0' <= c <= '9') || c == '_'
  }

  predicate AllSpace(s: string) {
    forall i :: 0 <= i < |s| ==> IsSpace(s[i])
  }

  predicate NoSpace(s: string) {
    forall i :: 0 <= i < |s| ==> !IsSpace(s[i])
  }

  /** `toLowerCase` restricted to ASCII letters. */
  function LowerChar(c: char): char {
    if IsUpper(c) then (c as int + 32) as char else c
  }

  predicate IsUpper(c: char) {
    'A' <= c <= 'Z'
  }

  /** ASCII `toLowerCase`: no upper-case letter survives, each upper-case letter
      becomes its lower-case partner, and every other character is kept. */
  function Lower(s: string): (r: string)
    ensures |r| == |s|
    ensures forall i :: 0 <= i < |r| ==> !IsUpper(r[i])
    ensures forall i :: 0 <= i < |s| && IsUpper(s[i]) ==> r[i] as int == s[i] as int + 32
    ensures forall i :: 0 <= i < |s| && !IsUpper(s[i]) ==> r[i] == s[i]
  {
    seq(|s|, i requires 0 <= i < |s| => LowerChar(s[i]))
  }

  /** Lower-casing twice is lower-casing once. */
  lemma LowerIdempotent(s: string)
    ensures Lower(Lower(s)) == Lower(s)
  {
  }

  lemma LowerAt(s: string, i: nat)
    requires i < |s|
    ensures Lower(s)[i] == LowerChar(s[i])
  {
  }

  lemma LowerSnoc(s: string, c: char)
    ensures Lower(s + [c]) == Lower(s) + [LowerChar(c)]
  {
  }

  /** `w` occurs in `text` starting at index `i`. */
  predicate OccursAt(text: string, w: string, i: int) {
    0 <= i && i + |w| <= |text| && text[i..i + |w|] == w
  }

  /** `text.includes(w)`: `w` occurs as a contiguous block of `text`. */
  predicate Contains(text: string, w: string) {
    exists i | 0 <= i <= |text| - |w| :: OccursAt(text, w, i)
  }

  /** `s.trim()`: leading and trailing `\s` characters removed. */
  function Trim(s: string): (r: string)
    ensures r == [] <==> AllSpace(s)
    ensures r != [] ==> !IsSpace(r[0]) && !IsSpace(r[|r| - 1])
  {
    TrimEnd(TrimStart(s))
  }

  function TrimStart(s: string): (r: string)
    ensures |r| <= |s| && r == s[|s| - |r|..]
    ensures r == [] <==> AllSpace(s)
    ensures r != [] ==> !IsSpace(r[0])
  {
    if s == [] || !IsSpace(s[0]) then s
    else TrimStart(s[1..])
  }

  function TrimEnd(s: string): (r: string)
    ensures |r| <= |s| && r == s[..|r|]
    ensures r == [] <==> AllSpace(s)
    ensures r != [] ==> !IsSpace(r[|r| - 1])
  {
    if s == [] || !IsSpace(s[|s| - 1]) then s
    else TrimEnd(s[..|s| - 1])
  }

  predicate IsDigit(c: char) {
    '0' <= c <= '9'
  }

  function DigitChar(d: nat): (c: char)
    requires d < 10
  {
    ('0' as int + d) as char
  }

  /** The value of a string of decimal digits. */
  function DigitsValue(s: string): nat
    requires forall i :: 0 <= i < |s| ==> IsDigit(s[i])
  {
    if s == [] then 0
    else
      assert IsDigit(s[|s| - 1]);
      DigitsValue(s[..|s| - 1]) * 10 + (s[|s| - 1] as int - '0' as int)
  }

  /** How a non-negative integer is rendered by `${n}` in a template string:
      decimal digits, no leading zero. */
  function NatToString(n: nat): (r: string)
    ensures |r| >= 1
    ensures forall i :: 0 <= i < |r| ==> IsDigit(r[i])
    ensures r[0] == '0' ==> n == 0
  {
    if n < 10 then [DigitChar(n)]
    else NatToString(n / 10) + [DigitChar(n % 10)]
  }

  /** Reading the rendered digits back gives the number: the rendering loses nothing. */
  lemma {:induction false} NatToStringRoundTrip(n: nat)
    ensures DigitsValue(NatToString(n)) == n
  {
    if n >= 10 {
      var r := NatToString(n);
      assert r[..|r| - 1] == NatToString(n / 10);
      NatToStringRoundTrip(n / 10);
    }
  }

  /** `xs` can be obtained from `ys` by deleting elements: the order of `ys` is kept. */
  predicate IsSubsequence<T(==)>(xs: seq<T>, ys: seq<T>)
    decreases |ys|
  {
    if xs == [] then true
    else if ys == [] then false
    else (xs[0] == ys[0] && IsSubsequence(xs[1..], ys[1..])) || IsSubsequence(xs, ys[1..])
  }

  lemma {:induction false} SubsequenceMembers<T>(xs: seq<T>, ys: seq<T>, x: T)
    requires IsSubsequence(xs, ys)
    requires x in xs
    ensures x in ys
    decreases |ys|
  {
    if IsSubsequence(xs, ys[1..]) {
      SubsequenceMembers(xs, ys[1..], x);
    } else if x != xs[0] {
      SubsequenceMembers(xs[1..], ys[1..], x);
    }
  }

  lemma SubsequenceNonMembers<T>(xs: seq<T>, ys: seq<T>, x: T)
    requires IsSubsequence(xs, ys)
    requires x !in ys
    ensures x !in xs
  {
    if x in xs {
      SubsequenceMembers(xs, ys, x);
    }
  }

  predicate Distinct<T(==)>(xs: seq<T>) {
    forall i, j :: 0 <= i < j < |xs| ==> xs[i] != xs[j]
  }

  /** A subsequence of a duplicate-free sequence is duplicate-free. */
  lemma {:induction false} SubsequenceDistinct<T>(xs: seq<T>, ys: seq<T>)
    requires IsSubsequence(xs, ys)
    requires Distinct(ys)
    ensures Distinct(xs)
    decreases |ys|
  {
    if xs != [] {
      if IsSubsequence(xs, ys[1..]) {
        SubsequenceDistinct(xs, ys[1..]);
      } else {
        SubsequenceDistinct(xs[1..], ys[1..]);
        forall j | 0 < j < |xs|
          ensures xs[0] != xs[j]
        {
          assert xs[j] == xs[1..][j - 1];
          SubsequenceMembers(xs[1..], ys[1..], xs[j]);
        }
      }
    }
  }
}

=== FILE: Transcript.dfy ===
/** Rebuilding the transcript from one speech-recognition result event
    (`handleSpeechResult`). */
module Transcript {

  /** One recognition result: the transcript of its first alternative and
      whether the recogniser has finalised it. */
  datatype Fragment = Fragment(text: string, isFinal: bool)

  /** A result event: the index of the first changed result and the results list. */
  datatype RecognitionEvent = RecognitionEvent(resultIndex: nat, results: seq<Fragment>)

  /** The results the handler visits: those from `resultIndex` onward (none when
      the index is past the end). */
  function Pending(ev: RecognitionEvent): seq<Fragment> {
    if ev.resultIndex <= |ev.results| then ev.results[ev.resultIndex..] else []
  }

  /** The concatenated texts of the fragments with the given finality, in order. */
  function JoinTexts(fs: seq<Fragment>, final: bool): string {
    if fs == [] then ""
    else JoinTexts(fs[..|fs| - 1], final) + (if fs[|fs| - 1].isFinal == final then fs[|fs| - 1].text else "")
  }

  /** Total length of all fragment texts. */
  function TotalLength(fs: seq<Fragment>): nat {
    if fs == [] then 0 else TotalLength(fs[..|fs| - 1]) + |fs[|fs| - 1].text|
  }

  /** The transcript the event leaves: every final text, then every interim text. */
  function Rebuild(ev: RecognitionEvent): string {
    JoinTexts(Pending(ev), true) + JoinTexts(Pending(ev), false)
  }

  /** The handler's loop: final and interim texts accumulate in two buffers that
      are concatenated at the end. */
  method HandleSpeechResult(ev: RecognitionEvent) returns (transcript: string)
    ensures transcript == Rebuild(ev)
  {
    var interimTranscript := "";
    var finalTranscript := "";
    var i := ev.resultIndex;
    while i < |ev.results|
      invariant ev.resultIndex <= i
      invariant i <= |ev.results| || i == ev.resultIndex
      invariant finalTranscript == JoinTexts(if i <= |ev.results| then ev.results[ev.resultIndex..i] else [], true)
      invariant interimTranscript == JoinTexts(if i <= |ev.results| then ev.results[ev.resultIndex..i] else [], false)
    {
      var done := ev.results[ev.resultIndex..i];
      assert ev.results[ev.resultIndex..i + 1] == done + [ev.results[i]];
      assert (done + [ev.results[i]])[..|done|] == done;
      if ev.results[i].isFinal {
        finalTranscript := finalTranscript + ev.results[i].text;
      } else {
        interimTranscript := interimTranscript + ev.results[i].text;
      }
      i := i + 1;
    }
    if i <= |ev.results| {
      assert ev.results[ev.resultIndex..i] == Pending(ev);
    }
    transcript := finalTranscript + interimTranscript;
  }

  /** Splitting by finality loses and duplicates nothing: the rebuilt transcript
      is as long as all visited texts together. */
  lemma {:induction false} JoinTextsPartition(fs: seq<Fragment>)
    ensures |JoinTexts(fs, true)| + |JoinTexts(fs, false)| == TotalLength(fs)
  {
    if fs != [] {
      JoinTextsPartition(fs[..|fs| - 1]);
    }
  }

  lemma RebuildLength(ev: RecognitionEvent)
    ensures |Rebuild(ev)| == TotalLength(Pending(ev))
  {
    JoinTextsPartition(Pending(ev));
  }

  /** When every visited result is final, the transcript is their texts in order. */
  lemma {:induction false} AllFinalInOrder(fs: seq<Fragment>)
    requires forall k :: 0 <= k < |fs| ==> fs[k].isFinal
    ensures JoinTexts(fs, false) == ""
    ensures JoinTexts(fs, true) == ConcatAll(fs)
  {
    if fs != [] {
      AllFinalInOrder(fs[..|fs| - 1]);
    }
  }

  /** The plain concatenation of all fragment texts. */
  function ConcatAll(fs: seq<Fragment>): string {
    if fs == [] then "" else ConcatAll(fs[..|fs| - 1]) + fs[|fs| - 1].text
  }

  /** A result event whose visited results are all final yields their texts in order. */
  lemma RebuildAllFinal(ev: RecognitionEvent)
    requires forall k :: 0 <= k < |Pending(ev)| ==> Pending(ev)[k].isFinal
    ensures Rebuild(ev) == ConcatAll(Pending(ev))
  {
    AllFinalInOrder(Pending(ev));
  }

  /** The final texts come first: a final fragment's text is never placed after an
      interim fragment's text, even when the interim one precedes it in the event. */
  lemma FinalBeforeInterim(a: string, b: string)
    ensures Rebuild(RecognitionEvent(0, [Fragment(a, false), Fragment(b, true)])) == b + a
  {
    var fs := [Fragment(a, false), Fragment(b, true)];
    assert Pending(RecognitionEvent(0, fs)) == fs;
    assert fs[..1] == [Fragment(a, false)];
    assert fs[..1][..0] == [];
    assert JoinTexts(fs[..1], true) == "";
    assert JoinTexts(fs[..1], false) == a;
    assert JoinTexts(fs, true) == b;
    assert JoinTexts(fs, false) == a;
  }
}

=== FILE: Words.dfy ===
/** Word splitting as `analyzeSpeech` does it: `text.split(/\s+/)` followed by
    dropping the empty strings. */
module WordSplit {
  import opened Text

  /** `s.split(/\s+/)`: the pieces between maximal runs of whitespace. A leading
      or trailing run yields an empty first or last piece. */
  function SplitOnSpaceRuns(s: string): (r: seq<string>)
    ensures |r| >= 1
    ensures forall k :: 0 <= k < |r| ==> NoSpace(r[k])
    ensures r[|r| - 1] != [] <==> s != [] && !IsSpace(s[|s| - 1])
    decreases |s|
  {
    if s == [] then [""]
    else
      var init := s[..|s| - 1];
      var c := s[|s| - 1];
      var p := SplitOnSpaceRuns(init);
      if !IsSpace(c) then p[..|p| - 1] + [p[|p| - 1] + [c]]
      else if init != [] && IsSpace(init[|init| - 1]) then p
      else p + [""]
  }

  /** `.filter(word => word.length > 0)`. */
  function NonEmpty(ps: seq<string>): (r: seq<string>)
    ensures |r| <= |ps|
    ensures forall k :: 0 <= k < |r| ==> r[k] != [] && r[k] in ps
  {
    if ps == [] then []
    else NonEmpty(ps[..|ps| - 1]) + (if ps[|ps| - 1] == [] then [] else [ps[|ps| - 1]])
  }

  lemma {:induction false} NonEmptyAppend(a: seq<string>, b: seq<string>)
    ensures NonEmpty(a + b) == NonEmpty(a) + NonEmpty(b)
    decreases |b|
  {
    if b == [] {
      assert a + b == a;
    } else {
      assert (a + b)[..|a + b| - 1] == a + b[..|b| - 1];
      NonEmptyAppend(a, b[..|b| - 1]);
    }
  }

  /** The words of a transcript: the non-empty whitespace-free tokens. */
  function Words(s: string): seq<string> {
    NonEmpty(SplitOnSpaceRuns(s))
  }

  /** Appending one character adds a word exactly when it starts one: a
      non-space character at the very beginning or right after a space. */
  lemma WordsSnoc(s: string, c: char)
    ensures |Words(s + [c])| ==
      |Words(s)| + (if !IsSpace(c) && (s == [] || IsSpace(s[|s| - 1])) then 1 else 0)
  {
    var sc := s + [c];
    assert sc[..|sc| - 1] == s;
    var p := SplitOnSpaceRuns(s);
    var last := p[|p| - 1];
    assert p == p[..|p| - 1] + [last];
    NonEmptyAppend(p[..|p| - 1], [last]);
    if !IsSpace(c) {
      NonEmptyAppend(p[..|p| - 1], [last + [c]]);
    } else if !(s != [] && IsSpace(s[|s| - 1])) {
      NonEmptyAppend(p, [""]);
    }
  }

  /** The number of words, computed with one left-to-right scan that counts the
      characters starting a word. */
  method CountWords(s: string) returns (n: nat)
    ensures n == |Words(s)|
  {
    n := 0;
    var inWord := false;
    var i := 0;
    while i < |s|
      invariant 0 <= i <= |s|
      invariant n == |Words(s[..i])|
      invariant inWord <==> i > 0 && !IsSpace(s[i - 1])
    {
      CountStep(s, i);
      if IsSpace(s[i]) {
        inWord := false;
      } else {
        if !inWord {
          n := n + 1;
        }
        inWord := true;
      }
      i := i + 1;
    }
    assert s[..i] == s;
  }

  /** One step of the scan: character `i` starts a word exactly when it is not a
      space and is first or follows a space. */
  lemma CountStep(s: string, i: nat)
    requires i < |s|
    ensures |Words(s[..i + 1])| ==
      |Words(s[..i])| + (if !IsSpace(s[i]) && (i == 0 || IsSpace(s[i - 1])) then 1 else 0)
  {
    WordsSnoc(s[..i], s[i]);
    assert s[..i + 1] == s[..i] + [s[i]];
  }

  /** A transcript has no words exactly when it is whitespace only (the empty
      string included). */
  lemma {:induction false} NoWordsIffAllSpace(s: string)
    ensures Words(s) == [] <==> AllSpace(s)
    decreases |s|
  {
    if s != [] {
      var init := s[..|s| - 1];
      assert s == init + [s[|s| - 1]];
      WordsSnoc(init, s[|s| - 1]);
      NoWordsIffAllSpace(init);
      if AllSpace(s) {
        assert AllSpace(init);
      }
    }
  }

  /** The gate of `handleSpeechEnd`: `transcript.trim()` is non-empty exactly
      when the transcript has at least one word. */
  lemma TrimGateIffWords(s: string)
    ensures Trim(s) != [] <==> |Words(s)| > 0
  {
    NoWordsIffAllSpace(s);
  }

  /** Lower-casing (which maps spaces to spaces and non-spaces to non-spaces)
      does not change the number of words. */
  lemma {:induction false} WordCountIgnoresCase(s: string)
    ensures |Words(Lower(s))| == |Words(s)|
    decreases |s|
  {
    if s != [] {
      var init := s[..|s| - 1];
      var c := s[|s| - 1];
      assert s == init + [c];
      LowerSnoc(init, c);
      LowerKeepsSpaces(c);
      if init != [] {
        LowerKeepsSpaces(init[|init| - 1]);
        LowerAt(init, |init| - 1);
      }
      WordsSnoc(init, c);
      WordsSnoc(Lower(init), LowerChar(c));
      WordCountIgnoresCase(init);
    }
  }

  lemma LowerKeepsSpaces(c: char)
    ensures IsSpace(LowerChar(c)) <==> IsSpace(c)
  {
  }

  /** A space appended after the text adds no word. */
  lemma WordsSnocSpace(s: string, c: char)
    requires IsSpace(c)
    ensures Words(s + [c]) == Words(s)
  {
    var sc := s + [c];
    assert sc[..|sc| - 1] == s;
    if !(s != [] && IsSpace(s[|s| - 1])) {
      var p := SplitOnSpaceRuns(s);
      assert SplitOnSpaceRuns(sc) == p + [""];
      NonEmptyAppend(p, [""]);
      NonEmptySingleton("");
      assert NonEmpty(p) + [] == NonEmpty(p);
    }
  }

  /** A non-space appended right after a word extends that word. */
  lemma WordsSnocExtend(s: string, c: char)
    requires !IsSpace(c)
    requires s != [] && !IsSpace(s[|s| - 1])
    ensures var w := Words(s);
      w != [] && Words(s + [c]) == w[..|w| - 1] + [w[|w| - 1] + [c]]
  {
    var p := SplitOnSpaceRuns(s);
    var front := p[..|p| - 1];
    var last := p[|p| - 1];
    assert p == front + [last];
    SplitSnocWordChar(s, c);
    var nf := NonEmpty(front);
    assert Words(s) == nf + [last] by {
      NonEmptyAppend(front, [last]);
      NonEmptySingleton(last);
    }
    assert Words(s + [c]) == nf + [last + [c]] by {
      NonEmptyAppend(front, [last + [c]]);
      NonEmptySingleton(last + [c]);
    }
    var w := nf + [last];
    assert w[..|w| - 1] == nf;
  }

  /** Words split at a space: the words of `a`, then those of `b`. */
  lemma WordsSplitAtSpace(a: string, c: char, b: string)
    requires IsSpace(c)
    ensures Words(a + [c] + b) == Words(a) + Words(b)
  {
    WordsSnocSpace(a, c);
    WordsAfterBreak(a + [c], b);
  }

  /** After a break, the words of what follows are appended unchanged. */
  lemma {:induction false} WordsAfterBreak(x: string, b: string)
    requires x == [] || IsSpace(x[|x| - 1])
    ensures Words(x + b) == Words(x) + Words(b)
    decreases |b|
  {
    if b == [] {
      assert x + b == x;
      assert Words(b) == [] by { NoWordsIffAllSpace(b); }
    } else {
      var b' := b[..|b| - 1];
      var d := b[|b| - 1];
      assert b == b' + [d];
      assert x + b == (x + b') + [d];
      var xb' := x + b';
      assert Words(xb') == Words(x) + Words(b') by { WordsAfterBreak(x, b'); }
      assert Words(xb' + [d]) == Words(x) + Words(b' + [d]) by { AfterBreakStep(x, b', d); }
    }
  }

  /** One character more on both sides keeps the words of `x + b` split as those of `x` and `b`. */
  lemma AfterBreakStep(x: string, b: string, d: char)
    requires Words(x + b) == Words(x) + Words(b)
    requires x == [] || IsSpace(x[|x| - 1])
    ensures Words((x + b) + [d]) == Words(x) + Words(b + [d])
  {
    if IsSpace(d) {
      StepSpace(x, b, d);
    } else if b == [] {
      assert x + b == x;
      StartCase(x, b, d);
    } else if IsSpace(b[|b| - 1]) {
      assert (x + b)[|x + b| - 1] == b[|b| - 1];
      StartCase(x, b, d);
    } else {
      ExtendCase(x, b, d);
    }
  }

  lemma StartCase(x: string, b: string, d: char)
    requires Words(x + b) == Words(x) + Words(b)
    requires !IsSpace(d)
    requires b == [] || IsSpace(b[|b| - 1])
    requires x + b == [] || IsSpace((x + b)[|x + b| - 1])
    ensures Words((x + b) + [d]) == Words(x) + Words(b + [d])
  {
    WordsSnocStart(x + b, d);
    WordsSnocStart(b, d);
    StepStart(x, b, d);
  }

  lemma ExtendCase(x: string, b: string, d: char)
    requires Words(x + b) == Words(x) + Words(b)
    requires !IsSpace(d)
    requires b != [] && !IsSpace(b[|b| - 1])
    ensures Words((x + b) + [d]) == Words(x) + Words(b + [d])
  {
    assert (x + b)[|x + b| - 1] == b[|b| - 1];
    WordsSnocExtend(x + b, d);
    WordsSnocExtend(b, d);
    StepExtend(x, b, d);
  }


  /** A space appended on both sides adds no word to either. */
  lemma StepSpace(x: string, b: string, d: char)
    requires Words(x + b) == Words(x) + Words(b)
    requires IsSpace(d)
    ensures Words((x + b) + [d]) == Words(x) + Words(b + [d])
  {
    var xb := x + b;
    assert Words(xb + [d]) == Words(xb) by { WordsSnocSpace(xb, d); }
    assert Words(b + [d]) == Words(b) by { WordsSnocSpace(b, d); }
  }

  /** A non-space after a break starts the same new word on both sides. */
  lemma StepStart(x: string, b: string, d: char)
    requires Words(x + b) == Words(x) + Words(b)
    requires Words((x + b) + [d]) == Words(x + b) + [[d]]
    requires Words(b + [d]) == Words(b) + [[d]]
    ensures Words((x + b) + [d]) == Words(x) + Words(b + [d])
  {
    AppendAssoc(Words(x), Words(b), [d]);
  }

  lemma AppendAssoc(u: seq<string>, v: seq<string>, e: string)
    ensures (u + v) + [e] == u + (v + [e])
  {
  }

  /** A non-space after a word extends the same last word on both sides. */
  lemma StepExtend(x: string, b: string, d: char)
    requires Words(x + b) == Words(x) + Words(b)
    requires Words(b) != []
    requires var w := Words(x + b); w != [] && Words((x + b) + [d]) == w[..|w| - 1] + [w[|w| - 1] + [d]]
    requires var w := Words(b); Words(b + [d]) == w[..|w| - 1] + [w[|w| - 1] + [d]]
    ensures Words((x + b) + [d]) == Words(x) + Words(b + [d])
  {
    ExtendLast(Words(x), Words(b), d);
  }

  lemma ExtendLast(u: seq<string>, v: seq<string>, d: char)
    requires v != []
    ensures var w := u + v;
      w[..|w| - 1] + [w[|w| - 1] + [d]] == u + (v[..|v| - 1] + [v[|v| - 1] + [d]])
  {
    var w := u + v;
    assert w[..|w| - 1] == u + v[..|v| - 1];
  }

  /** A non-space appended after a break starts a new one-character word. */
  lemma WordsSnocStart(s: string, c: char)
    requires !IsSpace(c)
    requires s == [] || IsSpace(s[|s| - 1])
    ensures Words(s + [c]) == Words(s) + [[c]]
  {
    WordsAppendWord(s, [c]);
  }

  /** Words joined by single spaces. */
  function JoinWithSpaces(ws: seq<string>): string {
    if ws == [] then ""
    else if |ws| == 1 then ws[0]
    else JoinWithSpaces(ws[..|ws| - 1]) + " " + ws[|ws| - 1]
  }

  /** Appending a whitespace-free block extends the last piece. */
  lemma {:induction false} SplitAppendBlock(a: string, w: string)
    requires NoSpace(w)
    ensures var p := SplitOnSpaceRuns(a);
      SplitOnSpaceRuns(a + w) == p[..|p| - 1] + [p[|p| - 1] + w]
    decreases |w|
  {
    var p := SplitOnSpaceRuns(a);
    var front := p[..|p| - 1];
    var last := p[|p| - 1];
    if w == [] {
      assert a + w == a;
      assert last + w == last;
      assert p == front + [last];
    } else {
      var w' := w[..|w| - 1];
      var c := w[|w| - 1];
      SplitAppendBlock(a, w');
      var q := SplitOnSpaceRuns(a + w');
      assert q == front + [last + w'];
      LastOfSnoc(front, last + w');
      SplitSnocWordChar(a + w', c);
      SnocAppend(a, w);
      SnocAppend(last, w);
    }
  }

  lemma SnocAppend(a: string, w: string)
    requires w != []
    ensures (a + w[..|w| - 1]) + [w[|w| - 1]] == a + w
  {
    assert w == w[..|w| - 1] + [w[|w| - 1]];
  }

  lemma LastOfSnoc(xs: seq<string>, x: string)
    ensures var ys := xs + [x]; ys[..|ys| - 1] == xs && ys[|ys| - 1] == x
  {
  }

  /** One step of the split: a non-space character extends the last piece. */
  lemma SplitSnocWordChar(s: string, c: char)
    requires !IsSpace(c)
    ensures var p := SplitOnSpaceRuns(s);
      SplitOnSpaceRuns(s + [c]) == p[..|p| - 1] + [p[|p| - 1] + [c]]
  {
    var sc := s + [c];
    assert sc[..|sc| - 1] == s;
  }

  /** Appending a word after the empty string or after a space adds exactly that word. */
  lemma WordsAppendWord(a: string, w: string)
    requires w != [] && NoSpace(w)
    requires a == [] || IsSpace(a[|a| - 1])
    ensures Words(a + w) == Words(a) + [w]
  {
    var p := SplitOnSpaceRuns(a);
    var front := p[..|p| - 1];
    SplitAfterBreak(a, w);
    var nf := NonEmpty(front);
    assert Words(a) == nf by {
      NonEmptyAppend(front, [[]]);
      NonEmptySingleton([]);
      assert nf + [] == nf;
    }
    assert Words(a + w) == nf + [w] by {
      NonEmptyAppend(front, [w]);
      NonEmptySingleton(w);
    }
  }

  /** After a break the split ends in an empty piece, which a following block replaces. */
  lemma SplitAfterBreak(a: string, w: string)
    requires NoSpace(w)
    requires a == [] || IsSpace(a[|a| - 1])
    ensures var p := SplitOnSpaceRuns(a);
      p == p[..|p| - 1] + [[]] && SplitOnSpaceRuns(a + w) == p[..|p| - 1] + [w]
  {
    var p := SplitOnSpaceRuns(a);
    var front := p[..|p| - 1];
    var last := p[|p| - 1];
    assert last == [];
    assert p == front + [last];
    assert SplitOnSpaceRuns(a + w) == front + [last + w] by {
      SplitAppendBlock(a, w);
    }
    assert last + w == w;
  }


  lemma NonEmptySingleton(w: string)
    ensures NonEmpty([w]) == if w == [] then [] else [w]
  {
    assert [w][..0] == [];
  }

  /** A trailing space after a word adds no word. */
  lemma WordsAppendSpace(a: string)
    requires a != [] && !IsSpace(a[|a| - 1])
    ensures Words(a + " ") == Words(a)
  {
    var a' := a + " ";
    assert a'[..|a'| - 1] == a;
    NonEmptyAppend(SplitOnSpaceRuns(a), [""]);
  }

  /** Round trip: splitting words joined by single spaces gives the words back. */
  lemma {:induction false} WordsOfJoin(ws: seq<string>)
    requires forall k :: 0 <= k < |ws| ==> ws[k] != [] && NoSpace(ws[k])
    ensures Words(JoinWithSpaces(ws)) == ws
    decreases |ws|
  {
    if ws == [] {
    } else if |ws| == 1 {
      WordsAppendWord("", ws[0]);
      assert "" + ws[0] == ws[0];
    } else {
      var init := ws[..|ws| - 1];
      var w := ws[|ws| - 1];
      var j := JoinWithSpaces(init);
      assert JoinWithSpaces(ws) == j + " " + w;
      WordsOfJoin(init);
      JoinNonEmptyEndsInWord(init);
      WordsAppendSpace(j);
      var js := j + " ";
      assert IsSpace(js[|js| - 1]);
      WordsAppendWord(js, w);
      assert Words(js + w) == init + [w];
      assert ws == init + [w];
    }
  }

  lemma {:induction false} JoinNonEmptyEndsInWord(ws: seq<string>)
    requires |ws| >= 1
    requires forall k :: 0 <= k < |ws| ==> ws[k] != [] && NoSpace(ws[k])
    ensures var j := JoinWithSpaces(ws); j != [] && !IsSpace(j[|j| - 1])
    decreases |ws|
  {
    var w := ws[|ws| - 1];
    assert !IsSpace(w[|w| - 1]);
  }
}
